=== FILE: README.md ===
# llm-router in Dafny

A functional model of the core of `llm-router`. The library routes one LLM
request through a priority-ordered list of providers and falls back to the
next provider when one fails. The model covers three parts:

- **The strike tracker** (`StrikeTracker`). It keeps a per-provider record of
  rate-limit "strikes" `{struck_at, reason, renews_at}`.
  - A lookup deletes a record lazily once its renewal time has come.
  - The sweep `clear_expired` deletes expired records eagerly.
  - `strike` computes the renewal time from an explicit retry delay or from
    the provider's renewal policy: rolling (+60 s), daily (next UTC midnight)
    or monthly (00:00 on the first of next month).
  - The optional JSON state file is an abstract store. After every write it
    holds the whole map.
  - The daily and monthly rules rest on a proleptic Gregorian calendar
    (`Calendar`). Its day-number/date conversions are proved to be inverse.
- **The cascade router** (`CascadeRouter`, `RateLimit`).
  - `call` sweeps the tracker and then walks the profile's provider list in
    order. It passes over undefined providers, records providers without an
    API key as skipped, records struck providers with their strike, and
    invokes the others until one replies.
  - A failure is classified by `_is_rate_limit_error`: the substring tests,
    a hand-written matcher for the regular expression
    `retry.?after[:\s]+(\d+)`, and a `retry-after` header override.
    Rate-limited providers get struck, and every failure is recorded.
  - If no provider replies, the call ends with the ordered attempts of
    `AllProvidersExhausted`.
  - `list_available` performs the same walk without invoking anyone.
- **Configuration** (`Config`, `Dicts`). This is the layered merge of the
  bundled provider and profile maps with a user file, over already-parsed
  values, and `validate_config` with its ordered warnings.
  - Python `dict`s are insertion-ordered dictionaries (`Dicts.Dict`), because
    key order decides the order of warnings, attempts and swept ids.

Time is an explicit `now`: whole seconds since the 1970 epoch, UTC. The process
environment is a map `Env`. The provider adapter is an oracle `Oracle`, which
gives the reply or the raised error for an invocation at each list position.
With these inputs, `Call` is a function of the router, profile, environment,
tracker, clock and oracle. It returns the outcome, the tracker afterwards and
the list positions at which the adapter was invoked.

Some behaviour of the code that the model keeps:

- `strike` uses the retry delay instead of the policy whenever the delay is
  truthy (non-zero), negative values included. A negative `retry-after`
  header therefore yields a renewal time in the past
  (`StrikeTracker.RenewsAt`, first ensures).
- `_is_rate_limit_error` reads the delay in the message first. A
  `retry-after` header that `int()` accepts then replaces it.
- The loop of `call` does not skip repeated entries. A provider listed twice
  in a profile is visited twice, and after a rate-limit failure the second
  visit records it as struck, unless the retry delay was negative. Then the
  record has already expired, so the second visit deletes it, saves the
  store and invokes the provider again. `Oracle` is keyed by position so that such
  visits are distinct.
- `list_available` reports `tier` and the strike record of each provider
  besides its name, model, key and availability.

## Model

| member | source | states |
|---|---|---|
| `StrikeTracker.Open` | llm_router/tracker.py:17-35 | Opening fails exactly when the file cannot be read or holds JSON that is not an object. Otherwise the new tracker agrees with its store. Without a store, with a missing file, or with text that is not JSON, it starts empty. A stored object gives its `strikes`. |
| `StrikeTracker.Save` | llm_router/tracker.py:37-44 | Saving keeps the map. Afterwards a configured store holds exactly that map. |
| `StrikeTracker.IsAvailable` | llm_router/tracker.py:46-65 | Available iff there is no record or the record has expired (`now >= renews_at`). Only an expired record of that provider is deleted and persisted. Otherwise the tracker is unchanged, including for a record without `renews_at`. |
| `StrikeTracker.NextMidnight` | llm_router/tracker.py:87-92 | The daily renewal time is a midnight boundary strictly after `now`, at most 86400 s later. Its date is the calendar successor of today's date. |
| `StrikeTracker.StartOfNextMonth` | llm_router/tracker.py:93-98 | The monthly renewal time is 00:00 on day 1 of the next month, with December rolling over to January of the next year. It is within 31 days, and no first of a month lies in between. |
| `StrikeTracker.RenewsAt` | llm_router/tracker.py:83-101 | A non-zero delay gives `now + delay`. A zero or absent delay falls back to the policy: daily and monthly as above, and `now + 60` for rolling or any other policy. The result is after `now` unless the delay is negative. |
| `StrikeTracker.Strike` | llm_router/tracker.py:67-108 | Sets the provider's record to `(now, reason, RenewsAt)` and leaves every other provider's record unchanged. The store then holds the new map. |
| `StrikeTracker.ExpiredKeys` | llm_router/tracker.py:113-118 | Selects exactly the listed ids whose records have expired. It is empty iff none of the listed records has expired. |
| `StrikeTracker.ExpiredKeysInOrder` | llm_router/tracker.py:113-118 | From a list of ids without repeats, the expired ids come out without repeats and in the list's order. |
| `StrikeTracker.ClearExpired` | llm_router/tracker.py:110-126 | Returns exactly the ids with expired records, without repeats and in the store's order, and deletes exactly those. The records left keep their order and are all in force. The store is written only when something was deleted. |
| `StrikeTracker.GetStatus` | llm_router/tracker.py:128-134 | The snapshot holds exactly the records still in force. `active_strikes` is their number. |
| `StrikeTracker.StrikeThenAvailable` | llm_router/tracker.py:46-108 | After a strike, the provider is available at time `later` iff `later` has reached the renewal time. |
| `StrikeTracker.ReopenAfterStrike` | llm_router/tracker.py:28-44 | A strike is persisted: reopening the store yields the same tracker. |
| `StrikeTracker.ReopenAfterAvailabilityCheck` | llm_router/tracker.py:57-63 | A lazy expiry is persisted: reopening the store yields the same tracker. |
| `StrikeTracker.ClearExpiredIdempotent` | llm_router/tracker.py:110-126 | A second sweep at the same time clears nothing and changes nothing. |
| `StrikeTracker.SweepKeepsFreshStrike` | llm_router/tracker.py:67-126 | Over a tracker with no expired record, a strike with a positive delay or none leaves nothing for a sweep at the same time. |
| `StrikeTracker.AvailableAfterSweep` | llm_router/tracker.py:51-65 | After a sweep, an availability check is a pure lookup. It is true iff the provider has no record, and it changes nothing. |
| `StrikeTracker.StatusAfterStrike` | llm_router/tracker.py:128-134 | Right after a strike, the status lists the provider iff its renewal time is still ahead. Without a delay the provider is always listed. |
| `Calendar.CivilFromDays` | llm_router/tracker.py:89 | The date of a day number (`now.date()`) is a valid date whose day number is the input. |
| `Calendar.CivilFromDaysOfCivil` | llm_router/tracker.py:90-98 | Every valid date passed to the `datetime` constructor is recovered from its day number. |
| `Calendar.NextDay` | llm_router/tracker.py:89 | `date + timedelta(days=1)` is the calendar successor: the next day of the month, the first of the next month, or January 1 of the next year. |
| `Calendar.FirstOfNextMonth` | llm_router/tracker.py:95-98 | The first of the next month is valid, has day 1, and lies one month length after the first of the current month. |
| `Text.Contains` | llm_router/router.py:204 | Python's `sub in s` holds iff `sub` occurs in `s` at some position. |
| `Text.ParseShowInt` | llm_router/router.py:216 | `int` reads back every integer that `str` writes. |
| `RateLimit.MatchAt` | llm_router/router.py:207 | A match at a position is a real match of `retry.?after[:\s]+(\d+)`, with a greedy digit group. |
| `RateLimit.MatchAtComplete` | llm_router/router.py:207 | Every match of the pattern at a position is the one the matcher finds there. |
| `RateLimit.Search` | llm_router/router.py:207 | The result is the leftmost match, and no position before it matches (`re.search`). |
| `RateLimit.RetryAfterInMessage` | llm_router/router.py:206-209 | A delay is taken from the message iff the pattern matches somewhere in it. Its value is the integer in the digit group of the leftmost match (`int(match.group(1))`). |
| `Text.ParseRejectsSeparator` | llm_router/router.py:216 | `int()` raises on a value that starts with one of the controls `\x1c`..`\x1f`, although `\s` matches them. |
| `RateLimit.SearchIsLeftmost` | llm_router/router.py:207 | The span the search finds is a leftmost match of the pattern, and every leftmost match has the same digit group. |
| `RateLimit.HeaderValues` | llm_router/router.py:212-214 | The values of exactly the headers whose name equals `retry-after` up to ASCII case. The list is empty iff no header has that name. |
| `RateLimit.HeaderValuesMany` | llm_router/router.py:212-214 | There are two or more values iff two headers have the name, so equal values of repeated headers are all kept. |
| `RateLimit.HeaderValuesFirst` | llm_router/router.py:212-214 | The first value is that of the first header with the name. |
| `RateLimit.RetryAfterHeader` | llm_router/router.py:211-218 | No headers, or no `retry-after` header, give no delay. A single header gives `int()` of its value, or nothing when `int()` raises. A repeated header gives nothing: its values are joined with ", ", which `int()` rejects. |
| `RateLimit.RetryAfterFromHeaders` | llm_router/router.py:211-218 | Stated on the headers themselves: two `retry-after` headers give no delay, and a header that is the only `retry-after` one gives `int()` of its value. |
| `Text.ParseInt` | llm_router/router.py:216 | A string `int()` accepts is not blank once its surrounding whitespace (space and `\t\n\v\f\r` only) is removed. It holds only that whitespace, digits, `_` and signs. |
| `RateLimit.Classify` | llm_router/router.py:195-226 | Rate-limited iff the lowered message contains "429", or both "rate" and "limit", or "quota" or "insufficient". A delay is only possible in the 429/rate-limit branch. There a parseable header wins. Otherwise there is a delay iff the message matches the pattern, and the delay is the digit group of the leftmost match. |
| `RateLimit.Truncate` | llm_router/router.py:306 | `s[:200]`: a prefix of `s` whose length is the smaller of 200 and the length of `s`. |
| `Dicts.Put` | llm_router/tracker.py:103-107 | Assigning a key changes only that key. An existing key keeps its place, and a new one goes last. |
| `Dicts.Remove` | llm_router/tracker.py:61 | Deleting a key removes only that key and keeps the order of the others. |
| `Dicts.RemoveAll` | llm_router/tracker.py:120-121 | Deleting a list of keys removes exactly those keys. The keys that remain keep their order (`Keep`). |
| `Dicts.Update` | llm_router/config.py:65 | `dict.update`: the domain is the union, the second dict's values win, old keys keep their place, and new keys follow in order. |
| `Config.MergeProviders` | llm_router/config.py:33-46 | Without a user file the result is the defaults. With one, a shared provider takes the user's value for every field the user sets and keeps its other default fields. A user-only provider is added as given, after the defaults and in the user's order. A default-only provider is unchanged. |
| `Config.MergeEach` | llm_router/config.py:40-44 | Each user provider is laid over its default definition, field by field, and one without a default is kept as given. |
| `Config.Overlay` | llm_router/config.py:41-42 | `providers[pid].update(pconfig)`: the user's fields win, and the other default fields stay. |
| `Config.MergeProfiles` | llm_router/config.py:59-67 | Profile merge is shallow. A user profile replaces the default of the same name as a whole, other defaults stay, and new profiles follow in order. |
| `Config.ReferenceWarnings` | llm_router/config.py:79-83 | A profile gets an unknown-provider warning for exactly its entries that name no defined provider. There are none iff all entries resolve. |
| `Config.ReferenceWarningsAppend` | llm_router/config.py:79-83 | The warnings of a list are those of its first part followed by those of the rest. With the one-entry case, this gives one warning per unresolved entry, repeats included, in list order. |
| `Config.ProviderWarnings` | llm_router/config.py:85-93 | A provider gets no warning iff it has `env_key` and its `sdk` is "openai" or "anthropic". A missing-env-key warning iff `env_key` is absent. A missing-sdk warning iff `sdk` is absent. An unsupported-sdk warning, carrying the `sdk` value (none when absent), iff that value is neither "openai" nor "anthropic". Each appears at most once, in this order. |
| `Config.AllReferenceWarningsAppend` | llm_router/config.py:78-83 | The reference warnings of a list of profiles are those of its first part followed by those of the rest, profile by profile. |
| `Config.AllProviderWarningsAppend` | llm_router/config.py:85-93 | The provider warnings of a list of providers are those of its first part followed by those of the rest, provider by provider. |
| `Config.AllReferenceWarningsMembers` | llm_router/config.py:78-83 | Across profiles, the reference warnings are exactly the pairs (profile, unresolved entry). |
| `Config.AllProviderWarningsMembers` | llm_router/config.py:85-93 | Across providers, the provider warnings are exactly each provider's own warnings. |
| `Config.ReferenceWarningsEmptyIff` | llm_router/config.py:78-83 | No reference warning iff every entry of every profile resolves. |
| `Config.ProviderWarningsEmptyIff` | llm_router/config.py:85-93 | No provider warning iff every provider is complete. |
| `Config.ValidateEmptyIff` | llm_router/config.py:70-95 | `validate_config` returns no warning iff every profile reference resolves and every provider has `env_key` and a supported `sdk`. |
| `Config.UnknownReferenceWarned` | llm_router/config.py:78-83 | An unknown-provider warning for (profile, entry) is issued iff that profile lists that entry and it names no provider. |
| `Config.MissingSdkWarnedTwice` | llm_router/config.py:88-93 | A provider without `sdk` gets both the missing-sdk and the unsupported-sdk warning. |
| `Config.ReferencesFirst` | llm_router/config.py:75-95 | All reference warnings come before all provider warnings. |
| `CascadeRouter.ApiKey` | llm_router/router.py:77-82 | A key exists iff `env_key` is a non-empty string naming a variable that is set in the environment. Its value is that variable's, possibly empty. |
| `CascadeRouter.Invoke` | llm_router/router.py:290-336 | A reply stops the cascade with its result and does not touch the tracker. An error adds a `failed` attempt with the classified `rate_limited` flag. A rate limit strikes with the provider's renewal policy (default rolling) and the parsed delay; otherwise the tracker is unchanged. |
| `CascadeRouter.Visit` | llm_router/router.py:259-336 | Only an entry naming a defined provider with a key is invoked. A stop is that provider's reply. An entry yields an attempt record iff it names a defined provider. |
| `CascadeRouter.VisitCases` | llm_router/router.py:259-288 | An unknown id passes with no record. A defined provider without a key is `skipped` with the reason "no API key". A usable provider with a strike in force is `struck`, with the stored reason (default "rate limited") and `renews_at`. A usable provider without a record is invoked. A usable provider whose strike has expired is invoked after the availability check has deleted the strike and saved the store. |
| `CascadeRouter.Cascade` | llm_router/router.py:259-338 | The loop ends served or exhausted, never with an unknown profile, and keeps the tracker consistent with its store. |
| `CascadeRouter.CascadeInvocationsOrdered` | llm_router/router.py:259-336 | Invocations follow list order, and no position is invoked twice. |
| `CascadeRouter.CascadeFailures` | llm_router/router.py:304-336 | Every invocation except a final successful one failed. |
| `CascadeRouter.CascadeServed` | llm_router/router.py:297-302 | A served cascade was served by the reply of its last invocation. |
| `CascadeRouter.CascadeAttempts` | llm_router/router.py:259-338 | On exhaustion, the attempts are one per entry naming a defined provider, in list order. |
| `CascadeRouter.CascadeWithoutRateLimit` | llm_router/router.py:304-327 | Without rate-limit failures, a cascade over a swept tracker leaves the tracker unchanged. |
| `CascadeRouter.Call` | llm_router/router.py:248-257 | An unknown profile fails (`KeyError`, with the available names) without touching the tracker or invoking anyone. Otherwise the outcome is served or exhausted, and the tracker stays consistent with its store. |
| `CascadeRouter.CallInvocations` | llm_router/router.py:259-302 | A call invokes forward through the list, at most once per position, and only entries naming a defined provider with a key. |
| `CascadeRouter.CallServedByFirstSuccess` | llm_router/router.py:290-302 | A served call returns the reply of its last invocation. Every earlier invocation failed at an earlier position, so the first success is returned and nothing after it is invoked. |
| `CascadeRouter.CallExhaustedAttempts` | llm_router/router.py:259-338 | `AllProvidersExhausted.attempts` names the defined providers of the list in list order, and every invocation failed. |
| `CascadeRouter.VisitReported` | llm_router/router.py:259-336 | Over a swept tracker and without a rate-limit failure, an entry that does not serve the call keeps the tracker and records the attempt `EntryAttempt` gives. |
| `CascadeRouter.CascadeReport` | llm_router/router.py:259-338 | Over a swept tracker and without rate-limit failures, an exhausted loop adds exactly the attempts `ExpectedAttempts` lists. |
| `CascadeRouter.CallExhaustedReport` | llm_router/router.py:259-338 | Without rate-limit failures, the exhaustion report is entry by entry: `skipped` with "no API key" iff the provider has no key; `struck` with the stored reason (default "rate limited") and `renews_at` iff it holds a strike after the sweep; otherwise `failed` with `"<type>: <text[:200]>"` and the classified flag. |
| `CascadeRouter.CallWithoutRateLimit` | llm_router/router.py:304-327 | Without rate-limit failures, a call changes the tracker only by its initial sweep. |
| `CascadeRouter.EntryStrike` | llm_router/router.py:300-314 | The tracker after one entry: only a rate-limit failure changes it, and only that provider's record. |
| `CascadeRouter.VisitFromBase` | llm_router/router.py:259-338 | When an entry's provider finds its record as in a tracker without expired records, the visit stops iff the entry serves the call, leaves the tracker `EntryStrike` gives, and records the attempt `EntryAttempt` gives. |
| `CascadeRouter.CascadeStrikes` | llm_router/router.py:259-338 | Over a list naming no provider twice, rate-limit failures included, the loop ends with the tracker `ExpectedTracker` gives and, when exhausted, with the attempts `ExpectedAttempts` lists. |
| `CascadeRouter.CallStrikes` | llm_router/router.py:257-338 | For a profile naming no provider twice, a call ends with the swept tracker plus one strike per rate-limited failure, in list order, up to the serving entry. When exhausted, it reports entry by entry: `failed` attempts carry the rate-limit flag, and struck providers are `struck` with the stored reason and `renews_at`. |
| `CascadeRouter.OneEntryCall` | llm_router/router.py:257-338 | A call over a one-entry list is a single visit over the swept tracker. |
| `CascadeRouter.VisitRateLimited` | llm_router/router.py:300-327 | A usable provider without a record that raises a rate-limit error is struck under its policy and the error's delay, and is recorded as `failed` with `rate_limited` true. |
| `CascadeRouter.RateLimitedCall` | llm_router/router.py:257-338 | A one-provider profile whose provider raises a rate-limit error ends exhausted with that one `failed` attempt, and the provider is struck in the tracker the call leaves. |
| `CascadeRouter.StruckCall` | llm_router/router.py:257-338 | A one-provider profile whose provider holds a strike in force reports it as `struck` with the stored reason and `renews_at`, invokes nothing and changes nothing. |
| `CascadeRouter.RateLimitedThenStruck` | llm_router/router.py:257-338 | The rate-limit scenario across two calls at the same time. A 429 with a positive delay or none strikes the provider. The next call reports it as `struck` with the error's text and the renewal time, without invoking it. |
| `CascadeRouter.SkipStrikeServe` | llm_router/router.py:259-302 | For the list [no key, struck, replies], the third provider serves the call and is the only one invoked. |
| `CascadeRouter.ListEntriesFrame` | llm_router/router.py:349-366 | Over a swept tracker, listing changes nothing and gives one row per entry naming a defined provider, in order. |
| `CascadeRouter.ListEntriesRows` | llm_router/router.py:353-365 | Each row reports the provider's name (default its id), model, tier, key presence, and strike. Availability is key and no strike. |
| `CascadeRouter.ListAvailable` | llm_router/router.py:340-367 | An unknown profile gives `[]` and leaves the tracker alone. Otherwise the tracker is swept, and there is one row per defined provider in list order, each as above. No provider is invoked, since no adapter is given. |
| `CascadeRouter.ListedAvailable` | llm_router/router.py:354-363 | A provider reported available has a key, and either no strike or one whose renewal time has come. |

## Left out

- Provider invocation (`_get_client`, `_call_provider`, llm_router/router.py:84-193) is the oracle `Oracle`. SDK selection, client caching, the missing-Anthropic-SDK case and the response-shape translation are inside the oracle. So are the `model` override, `temperature` and `max_tokens` pass-through.
- `os.environ` is the map `Env`. An `env_key` that is falsy (`null`, `0`, `false`, an empty list) gives no key, as in the model. A truthy `env_key` that is not a string makes `os.environ.get` raise `TypeError`, which escapes `call` (llm_router/router.py:267) and `list_available`. The model treats it as naming no variable.
- The clock is the parameter `now`, in whole seconds. `clear_expired` re-reads the clock for every record; the model uses one `now` per call. Sub-second precision is not modelled.
- `CascadeRouter.CallWithoutRateLimit`: this holds for one clock reading per call. In Python, `is_available` and `strike` read the clock again at each entry, after the network calls of earlier providers. A strike in force at the initial sweep can expire during the call. `is_available` then deletes it, saves the store and invokes the provider, so the tracker changes beyond the sweep.
- `CascadeRouter.CallExhaustedReport`: this holds for one clock reading per call. A strike that expires during the call, after the initial sweep, is deleted and its provider invoked, so no `struck` attempt is reported for it, where the model reports one.
- `CascadeRouter.CallStrikes`: this holds for one clock reading per call, for the same reason: a strike expiring during the call is deleted and its provider invoked. The `renews_at` of a new strike is computed from the clock reading at that entry, not from the one at the start of the call.
- File and YAML/JSON I/O (`load_yaml`, `_load`, `_save`) are left out. The store is the abstract `StoreFile`, and the merges take already-parsed values. A user file that is absent or not configured is `None`. A read that raises (`OSError`, `UnicodeDecodeError`) is the store `Unreadable`. Write failures and the exact JSON layout are not modelled.
- The model takes every provider definition of a custom file to be a mapping. In Python, a non-mapping definition of an id that is not a default is stored as it is. `validate_config` then raises during construction: at `"env_key" not in pconfig` for `null` or a number (`TypeError`), or at `pconfig.get` for a string or a list (`AttributeError`). For a default id, `dict.update` merges a list of key/value pairs without raising and raises for other non-mappings.
- A profile that is not a mapping makes `profile.get` raise `AttributeError`: in `validate_config`, so construction fails, and in `call` and `list_available`. The model's `Profile` is always a mapping.
- A profile's `providers` entry that is present but not a list is treated as the empty list. In Python, a YAML `null` or a number there makes the iteration raise `TypeError`: in `validate_config` (so construction fails), in `call` and in `list_available`. A string is iterated character by character and a mapping by its keys.
- Unhashable list entries (a mapping as a profile entry) would make `pid not in self.providers` raise. The model treats every non-string entry as undefined.
- A `rate_limit` setting that is not a mapping (`null`, a string, a list) makes `call` raise `AttributeError` from its exception handler on a rate-limit failure. The model treats it as the rolling policy. A non-string `renewal` is treated as the rolling policy as well.
- Timestamps are kept as integers. Parsing and printing ISO-8601 strings is left out. So are malformed or timezone-naive `renews_at` values, which make `datetime.fromisoformat` or the comparison raise, and years outside 1..9999, where `datetime` raises `OverflowError` or `ValueError` (a monthly renewal in December 9999 asks for year 10000). A JSON `null` or empty `renews_at` is `None`.
- `str.lower`, `\s`, `\d` and the whitespace `int()` skips are modelled on ASCII only. The Unicode case mappings and the non-ASCII whitespace and digits are not modelled.
- Response headers are a list of name/value pairs, looked up case-insensitively. Repeated headers are joined with ", ", as `httpx` does. Header objects of other libraries are not modelled.
- `StrikeTracker.Open`: a `strikes` entry that is present but not an object is not modelled. The source keeps it, and a later `in` or `del` on it misbehaves or raises.
- `CascadeRouter.VisitCases`: a stored record whose `reason` is JSON `null` is reported with the reason "rate limited". The source reports `None`, since `dict.get` returns a stored `None`. A stored empty `renews_at` is reported as `None`, where the source reports `""`. Stored records keep these fields only as optional values.
- Logging to stderr, the text of warnings and exception messages (`AllProvidersExhausted.__str__`, the `KeyError` text) are left out. The warnings are the datatype `Config.Warning`, and the `KeyError` carries the profile name and the available names.
- `llm_router/__init__.py` is a convenience wrapper and is not part of this model.
- `Text.ParseInt`: its contract only states that a parsed string is not blank once trimmed and holds only whitespace, digits, `_` and signs. Its full meaning is stated through the round trip `Text.ParseShowInt`, not as a characterisation of every string `int()` accepts.

=== FILE: calendar.dfy ===
/**
 The proleptic Gregorian calendar in UTC, as far as the strike tracker needs
 it: timestamps are whole seconds since 1970-01-01T00:00:00Z, days are
 counted from the same epoch, and dates convert to and from day numbers.
 */
module Calendar {

  const SecondsPerDay: int := 86400
  const EpochYear: int := 1970

  datatype Date = Date(year: int, month: int, day: int)

  predicate IsLeapYear(y: int) {
    y % 4 == 0 && (y % 100 != 0 || y % 400 == 0)
  }

  function DaysInYear(y: int): int {
    if IsLeapYear(y) then 366 else 365
  }

  function DaysInMonth(y: int, m: int): int
    requires 1 <= m <= 12
  {
    if m == 2 then (if IsLeapYear(y) then 29 else 28)
    else if m == 4 || m == 6 || m == 9 || m == 11 then 30
    else 31
  }

  /** A date the Python `datetime` constructor accepts (the year range aside). */
  predicate ValidDate(d: Date) {
    1 <= d.month <= 12 && 1 <= d.day <= DaysInMonth(d.year, d.month)
  }

  /** Days of year `y` before the first of month `m`, from the cumulative table. */
  function DaysBeforeMonth(y: int, m: int): int
    requires 1 <= m <= 12
  {
    [0, 31, 59, 90, 120, 151, 181, 212, 243, 273, 304, 334][m - 1]
      + (if m > 2 && IsLeapYear(y) then 1 else 0)
  }

  /** The cumulative table agrees with the month lengths. */
  lemma MonthTable(y: int, m: int)
    requires 1 <= m <= 12
    ensures m == 1 ==> DaysBeforeMonth(y, m) == 0
    ensures m < 12 ==> DaysBeforeMonth(y, m + 1) == DaysBeforeMonth(y, m) + DaysInMonth(y, m)
    ensures m == 12 ==> DaysBeforeMonth(y, m) + DaysInMonth(y, m) == DaysInYear(y)
  {
  }

  /** Days from 1970-01-01 to the first of January of year `y` (negative before 1970). */
  function DaysBeforeYear(y: int): int
    decreases if y >= EpochYear then y - EpochYear else EpochYear - y
  {
    if y == EpochYear then 0
    else if y > EpochYear then DaysBeforeYear(y - 1) + DaysInYear(y - 1)
    else DaysBeforeYear(y + 1) - DaysInYear(y)
  }

  lemma YearStep(y: int)
    ensures DaysBeforeYear(y + 1) == DaysBeforeYear(y) + DaysInYear(y)
  {
  }

  /** Later years start later: the year boundaries are strictly increasing. */
  lemma {:induction false} YearMonotone(a: int, b: int)
    requires a < b
    ensures DaysBeforeYear(a + 1) <= DaysBeforeYear(b)
    decreases b - a
  {
    if a + 1 < b {
      YearMonotone(a, b - 1);
      YearStep(b - 1);
    }
  }

  /** A day belongs to at most one year. */
  lemma YearUnique(z: int, a: int, b: int)
    requires DaysBeforeYear(a) <= z < DaysBeforeYear(a + 1)
    requires DaysBeforeYear(b) <= z < DaysBeforeYear(b + 1)
    ensures a == b
  {
    if a < b { YearMonotone(a, b); }
    if b < a { YearMonotone(b, a); }
  }

  function YearUp(z: int, y: int): (r: int)
    requires DaysBeforeYear(y) <= z
    ensures DaysBeforeYear(r) <= z < DaysBeforeYear(r + 1)
    decreases z - DaysBeforeYear(y)
  {
    YearStep(y);
    if z < DaysBeforeYear(y + 1) then y else YearUp(z, y + 1)
  }

  function YearDown(z: int, y: int): (r: int)
    requires z < DaysBeforeYear(y + 1)
    ensures DaysBeforeYear(r) <= z < DaysBeforeYear(r + 1)
    decreases DaysBeforeYear(y + 1) - z
  {
    YearStep(y);
    if DaysBeforeYear(y) <= z then y else YearDown(z, y - 1)
  }

  /** The year that contains day number `z`. */
  function YearOf(z: int): (y: int)
    ensures DaysBeforeYear(y) <= z < DaysBeforeYear(y + 1)
  {
    if z >= 0 then YearUp(z, EpochYear) else YearDown(z, EpochYear - 1)
  }

  /** The month of year `y` that contains day `doy` of that year, searched from month `m`. */
  function MonthFrom(y: int, doy: int, m: int): (r: int)
    requires 1 <= m <= 12
    requires DaysBeforeMonth(y, m) <= doy < DaysInYear(y)
    ensures m <= r <= 12
    ensures DaysBeforeMonth(y, r) <= doy < DaysBeforeMonth(y, r) + DaysInMonth(y, r)
    decreases 12 - m
  {
    MonthTable(y, m);
    if m == 12 || doy < DaysBeforeMonth(y, m + 1) then m else MonthFrom(y, doy, m + 1)
  }

  /** A day of the year belongs to at most one month. */
  lemma MonthUnique(y: int, doy: int, a: int, b: int)
    requires 1 <= a <= 12 && 1 <= b <= 12
    requires DaysBeforeMonth(y, a) <= doy < DaysBeforeMonth(y, a) + DaysInMonth(y, a)
    requires DaysBeforeMonth(y, b) <= doy < DaysBeforeMonth(y, b) + DaysInMonth(y, b)
    ensures a == b
  {
    MonthTable(y, a);
    MonthTable(y, b);
  }

  /** The day number of a date (Python's `date.toordinal` shifted to the 1970 epoch). */
  function DaysFromCivil(d: Date): int
    requires ValidDate(d)
  {
    DaysBeforeYear(d.year) + DaysBeforeMonth(d.year, d.month) + d.day - 1
  }

  /** The date of day number `z`. */
  function CivilFromDays(z: int): (d: Date)
    ensures ValidDate(d)
    ensures DaysFromCivil(d) == z
  {
    var y := YearOf(z);
    YearStep(y);
    var doy := z - DaysBeforeYear(y);
    var m := MonthFrom(y, doy, 1);
    Date(y, m, doy - DaysBeforeMonth(y, m) + 1)
  }

  /** Every valid date is recovered from its day number. */
  lemma CivilFromDaysOfCivil(d: Date)
    requires ValidDate(d)
    ensures CivilFromDays(DaysFromCivil(d)) == d
  {
    var z := DaysFromCivil(d);
    var e := CivilFromDays(z);
    MonthTable(d.year, d.month);
    MonthTable(e.year, e.month);
    YearStep(d.year);
    YearStep(e.year);
    if d.month < 12 { MonthTable(d.year, d.month + 1); }
    assert DaysBeforeMonth(d.year, d.month) + DaysInMonth(d.year, d.month) <= DaysInYear(d.year) by {
      MonthBound(d.year, d.month);
    }
    assert DaysBeforeMonth(e.year, e.month) + DaysInMonth(e.year, e.month) <= DaysInYear(e.year) by {
      MonthBound(e.year, e.month);
    }
    YearUnique(z, d.year, e.year);
    MonthUnique(d.year, z - DaysBeforeYear(d.year), d.month, e.month);
  }

  lemma MonthBound(y: int, m: int)
    requires 1 <= m <= 12
    ensures DaysBeforeMonth(y, m) + DaysInMonth(y, m) <= DaysInYear(y)
  {
  }

  /** The calendar's successor of a date, from month lengths alone. */
  function NextDate(d: Date): Date
    requires ValidDate(d)
  {
    if d.day < DaysInMonth(d.year, d.month) then Date(d.year, d.month, d.day + 1)
    else if d.month < 12 then Date(d.year, d.month + 1, 1)
    else Date(d.year + 1, 1, 1)
  }

  /** Counting one day on is the calendar's successor. */
  lemma NextDay(z: int)
    ensures ValidDate(NextDate(CivilFromDays(z)))
    ensures CivilFromDays(z + 1) == NextDate(CivilFromDays(z))
  {
    var d := CivilFromDays(z);
    var n := NextDate(d);
    MonthTable(d.year, d.month);
    YearStep(d.year);
    assert ValidDate(n);
    assert DaysFromCivil(n) == z + 1;
    CivilFromDaysOfCivil(n);
  }

  /** The day number of timestamp `t` (Python's `dt.date()` in UTC). */
  function DayOf(t: int): int {
    t / SecondsPerDay
  }

  /** Midnight of day `k` is a whole number of days and falls on day `k`. */
  lemma MidnightOfDay(k: int)
    ensures (k * SecondsPerDay) % SecondsPerDay == 0
    ensures DayOf(k * SecondsPerDay) == k
  {
  }

  /** A timestamp lies between the midnight of its day and the next one. */
  lemma DayBounds(t: int)
    ensures DayOf(t) * SecondsPerDay <= t < (DayOf(t) + 1) * SecondsPerDay
  {
  }

  /** The first of the month after the one containing `d`, rolling December over to January. */
  function FirstOfNextMonth(d: Date): (r: Date)
    requires ValidDate(d)
    ensures ValidDate(r) && r.day == 1
    ensures DaysFromCivil(r) == DaysFromCivil(d) - d.day + 1 + DaysInMonth(d.year, d.month)
  {
    MonthTable(d.year, d.month);
    YearStep(d.year);
    if d.month == 12 then Date(d.year + 1, 1, 1) else Date(d.year, d.month + 1, 1)
  }
}

=== FILE: config.dfy ===
/**
 Provider and profile configuration: the layered merge of the bundled
 defaults with a user file, and the validation that produces the list of
 configuration warnings. YAML parsing and file access are outside the model;
 the merge works on the already-parsed mappings.
 */
module Config {
  import opened Wrappers
  import opened Dicts

  type ProviderId = string

  /** A parsed YAML value. */
  datatype Value =
    | Str(s: string)
    | List(items: seq<Value>)
    | Obj(fields: Dict<Value>)
    | Scalar(text: string)   // a number, boolean or null, by its YAML spelling

  /** One provider's settings: `name`, `env_key`, `sdk`, `default_model`, `rate_limit`, ... */
  type ProviderConfig = Dict<Value>

  /** One routing profile's settings: `description`, `providers`, ... */
  type Profile = Dict<Value>

  const SupportedSdks: seq<Value> := [Str("openai"), Str("anthropic")]

  /** A profile's `providers` list; an absent entry is the empty list. */
  function ProviderList(p: Profile): seq<Value> {
    var v := Get(p, "providers");
    if v.Some? && v.value.List? then v.value.items else []
  }

  /** A profile entry names a defined provider. */
  predicate IsKnown(providers: Dict<ProviderConfig>, item: Value) {
    item.Str? && item.s in providers.values
  }

  /**
   Provider merge. Without a user file the defaults are the result. With
   one, a provider defined in both keeps its default fields and takes the
   user's value for every field the user sets; a provider only the user
   defines is added after the defaults, in the user's order.
   */
  function MergeProviders(defaults: Dict<ProviderConfig>, custom: Option<Dict<ProviderConfig>>): (r: Dict<ProviderConfig>)
    ensures custom.None? ==> r == defaults
    ensures custom.Some? ==> r.keys == defaults.keys + Fresh(defaults, custom.value.keys)
    ensures custom.Some? ==> forall pid :: pid in r.values <==> pid in defaults.values || pid in custom.value.values
    ensures custom.Some? ==> forall pid, f :: pid in defaults.values && pid in custom.value.values ==>
              Get(r.values[pid], f) == if f in custom.value.values[pid].values
                                       then Get(custom.value.values[pid], f)
                                       else Get(defaults.values[pid], f)
    ensures custom.Some? ==> forall pid :: pid in custom.value.values && pid !in defaults.values ==>
              r.values[pid] == custom.value.values[pid]
    ensures custom.Some? ==> forall pid :: pid in defaults.values && pid !in custom.value.values ==>
              r.values[pid] == defaults.values[pid]
  {
    if custom.None? then defaults
    else
      var merged := MergeEach(defaults, custom.value);
      var r := Update(defaults, merged);
      assert forall pid :: pid in r.values <==> pid in defaults.values || pid in merged.values;
      r
  }

  /** Each user provider, laid over its default definition when there is one. */
  function MergeEach(defaults: Dict<ProviderConfig>, c: Dict<ProviderConfig>): (m: Dict<ProviderConfig>)
    ensures m.keys == c.keys
    ensures forall pid :: pid in m.values <==> pid in c.values
    ensures forall pid, f :: pid in defaults.values && pid in c.values ==>
              Get(m.values[pid], f) == if f in c.values[pid].values then Get(c.values[pid], f) else Get(defaults.values[pid], f)
    ensures forall pid :: pid in c.values && pid !in defaults.values ==> m.values[pid] == c.values[pid]
  {
    var values := map pid | pid in c.values :: Overlay(defaults, c.values[pid], pid);
    RawDict(c.keys, values)
  }

  /** One user provider over its default definition: the user's fields win, the other defaults stay. */
  function Overlay(defaults: Dict<ProviderConfig>, cfg: ProviderConfig, pid: ProviderId): (m: ProviderConfig)
    ensures pid !in defaults.values ==> m == cfg
    ensures pid in defaults.values ==> forall f ::
              Get(m, f) == if f in cfg.values then Get(cfg, f) else Get(defaults.values[pid], f)
  {
    if pid in defaults.values then Update(defaults.values[pid], cfg) else cfg
  }

  /**
   Profile merge is shallow: a user profile replaces the default profile of
   the same name as a whole, and every other default profile stays.
   */
  function MergeProfiles(defaults: Dict<Profile>, custom: Option<Dict<Profile>>): (r: Dict<Profile>)
    ensures custom.None? ==> r == defaults
    ensures custom.Some? ==> forall name ::
              Get(r, name) == (if name in custom.value.values then Get(custom.value, name) else Get(defaults, name))
    ensures custom.Some? ==> r.keys == defaults.keys + Fresh(defaults, custom.value.keys)
  {
    if custom.None? then defaults else Update(defaults, custom.value)
  }

  /** One configuration problem; the source renders each as one line of text. */
  datatype Warning =
    | UnknownProvider(profile: string, entry: Value)
    | MissingEnvKey(provider: ProviderId)
    | MissingSdk(provider: ProviderId)
    | UnsupportedSdk(provider: ProviderId, sdk: Option<Value>)

  /** The warnings about one profile's list: one per entry that is not a defined provider. */
  function ReferenceWarnings(providers: Dict<ProviderConfig>, name: string, items: seq<Value>): (w: seq<Warning>)
    ensures forall x :: x in w <==> exists v :: x == UnknownProvider(name, v) && v in items && !IsKnown(providers, v)
    ensures w == [] <==> forall v :: v in items ==> IsKnown(providers, v)
    ensures |w| <= |items|
  {
    if items == [] then []
    else
      var rest := ReferenceWarnings(providers, name, items[1..]);
      assert forall v :: v in items <==> v == items[0] || v in items[1..];
      (if IsKnown(providers, items[0]) then [] else [UnknownProvider(name, items[0])]) + rest
  }

  /** The warnings of a list split in two are those of the first part followed by those of the second. */
  lemma {:induction false} ReferenceWarningsAppend(providers: Dict<ProviderConfig>, name: string, a: seq<Value>, b: seq<Value>)
    ensures ReferenceWarnings(providers, name, a + b) == ReferenceWarnings(providers, name, a) + ReferenceWarnings(providers, name, b)
    decreases |a|
  {
    if a != [] {
      var h := if IsKnown(providers, a[0]) then [] else [UnknownProvider(name, a[0])];
      assert (a + b)[0] == a[0] && (a + b)[1..] == a[1..] + b;
      assert ReferenceWarnings(providers, name, a + b) == h + ReferenceWarnings(providers, name, a[1..] + b);
      ReferenceWarningsAppend(providers, name, a[1..], b);
      assert ReferenceWarnings(providers, name, a) == h + ReferenceWarnings(providers, name, a[1..]);
      SeqAssoc(h, ReferenceWarnings(providers, name, a[1..]), ReferenceWarnings(providers, name, b));
    } else {
      assert a + b == b;
    }
  }

  /** A single entry draws one warning when it names no defined provider, and none otherwise. */
  lemma ReferenceWarningsSingle(providers: Dict<ProviderConfig>, name: string, v: Value)
    ensures ReferenceWarnings(providers, name, [v]) == if IsKnown(providers, v) then [] else [UnknownProvider(name, v)]
  {
  }

  /** A provider's settings name both a credential variable and a supported SDK. */
  predicate ProviderComplete(cfg: ProviderConfig) {
    "env_key" in cfg.values && Get(cfg, "sdk") in [Some(SupportedSdks[0]), Some(SupportedSdks[1])]
  }

  /** The position of each kind of warning in the order `validate_config` makes its checks. */
  function CheckOrder(x: Warning): nat {
    match x
    case UnknownProvider(_, _) => 0
    case MissingEnvKey(_) => 1
    case MissingSdk(_) => 2
    case UnsupportedSdk(_, _) => 3
  }

  /**
   The warnings about one provider: a missing `env_key`, a missing `sdk`,
   and an `sdk` that is neither "openai" nor "anthropic" (an absent one
   included, reported with its value), each at most once and in that order.
   */
  function ProviderWarnings(pid: ProviderId, cfg: ProviderConfig): (w: seq<Warning>)
    ensures w == [] <==> ProviderComplete(cfg)
    ensures MissingEnvKey(pid) in w <==> "env_key" !in cfg.values
    ensures MissingSdk(pid) in w <==> "sdk" !in cfg.values
    ensures forall sdk :: UnsupportedSdk(pid, sdk) in w <==> sdk == Get(cfg, "sdk") && sdk !in [Some(SupportedSdks[0]), Some(SupportedSdks[1])]
    ensures MissingSdk(pid) in w ==> UnsupportedSdk(pid, None) in w
    ensures forall x :: x in w ==> !x.UnknownProvider? && x.provider == pid
    ensures forall i, j :: 0 <= i < j < |w| ==> CheckOrder(w[i]) < CheckOrder(w[j])
    ensures |w| <= 3
  {
    var sdk := Get(cfg, "sdk");
    (if "env_key" in cfg.values then [] else [MissingEnvKey(pid)])
    + (if "sdk" in cfg.values then [] else [MissingSdk(pid)])
    + (if sdk == Some(SupportedSdks[0]) || sdk == Some(SupportedSdks[1]) then [] else [UnsupportedSdk(pid, sdk)])
  }

  function AllReferenceWarnings(providers: Dict<ProviderConfig>, profiles: Dict<Profile>, names: seq<string>): seq<Warning>
    requires forall n :: n in names ==> n in profiles.values
  {
    if names == [] then []
    else ReferenceWarnings(providers, names[0], ProviderList(profiles.values[names[0]]))
         + AllReferenceWarnings(providers, profiles, names[1..])
  }

  function AllProviderWarnings(providers: Dict<ProviderConfig>, ids: seq<ProviderId>): seq<Warning>
    requires forall pid :: pid in ids ==> pid in providers.values
  {
    if ids == [] then []
    else ProviderWarnings(ids[0], providers.values[ids[0]]) + AllProviderWarnings(providers, ids[1..])
  }

  /** The reference warnings of profiles split in two are those of the first part followed by those of the second. */
  lemma {:induction false} AllReferenceWarningsAppend(providers: Dict<ProviderConfig>, profiles: Dict<Profile>, a: seq<string>, b: seq<string>)
    requires forall n :: n in a ==> n in profiles.values
    requires forall n :: n in b ==> n in profiles.values
    ensures AllReferenceWarnings(providers, profiles, a + b)
            == AllReferenceWarnings(providers, profiles, a) + AllReferenceWarnings(providers, profiles, b)
    decreases |a|
  {
    if a == [] {
      assert a + b == b;
    } else {
      hide ReferenceWarnings, AllReferenceWarnings;
      var h := ReferenceWarnings(providers, a[0], ProviderList(profiles.values[a[0]]));
      var ab := a + b;
      assert ab[0] == a[0] && ab[1..] == a[1..] + b;
      AllReferenceWarningsCons(providers, profiles, ab);
      AllReferenceWarningsCons(providers, profiles, a);
      AllReferenceWarningsAppend(providers, profiles, a[1..], b);
      SeqAssoc(h, AllReferenceWarnings(providers, profiles, a[1..]), AllReferenceWarnings(providers, profiles, b));
    }
  }

  lemma AllReferenceWarningsCons(providers: Dict<ProviderConfig>, profiles: Dict<Profile>, names: seq<string>)
    requires names != [] && forall n :: n in names ==> n in profiles.values
    ensures AllReferenceWarnings(providers, profiles, names)
            == ReferenceWarnings(providers, names[0], ProviderList(profiles.values[names[0]]))
               + AllReferenceWarnings(providers, profiles, names[1..])
  {
  }

  /** The provider warnings of ids split in two are those of the first part followed by those of the second. */
  lemma {:induction false} AllProviderWarningsAppend(providers: Dict<ProviderConfig>, a: seq<ProviderId>, b: seq<ProviderId>)
    requires forall pid :: pid in a ==> pid in providers.values
    requires forall pid :: pid in b ==> pid in providers.values
    ensures AllProviderWarnings(providers, a + b) == AllProviderWarnings(providers, a) + AllProviderWarnings(providers, b)
    decreases |a|
  {
    if a == [] {
      assert a + b == b;
    } else {
      hide ProviderWarnings, AllProviderWarnings;
      var h := ProviderWarnings(a[0], providers.values[a[0]]);
      var ab := a + b;
      assert ab[0] == a[0] && ab[1..] == a[1..] + b;
      AllProviderWarningsCons(providers, ab);
      AllProviderWarningsCons(providers, a);
      AllProviderWarningsAppend(providers, a[1..], b);
      SeqAssoc(h, AllProviderWarnings(providers, a[1..]), AllProviderWarnings(providers, b));
    }
  }

  /** Concatenation is associative. */
  lemma SeqAssoc<T>(h: seq<T>, x: seq<T>, y: seq<T>)
    ensures h + (x + y) == (h + x) + y
  {
  }

  lemma AllProviderWarningsCons(providers: Dict<ProviderConfig>, ids: seq<ProviderId>)
    requires ids != [] && forall pid :: pid in ids ==> pid in providers.values
    ensures AllProviderWarnings(providers, ids)
            == ProviderWarnings(ids[0], providers.values[ids[0]]) + AllProviderWarnings(providers, ids[1..])
  {
  }

  /**
   `validate_config`: first the unknown references, profile by profile and
   entry by entry, then the per-provider problems, provider by provider.
   */
  function ValidateConfig(providers: Dict<ProviderConfig>, profiles: Dict<Profile>): seq<Warning> {
    AllReferenceWarnings(providers, profiles, profiles.keys)
      + AllProviderWarnings(providers, providers.keys)
  }

  lemma {:induction false} AllReferenceWarningsMembers(providers: Dict<ProviderConfig>, profiles: Dict<Profile>, names: seq<string>)
    requires forall n :: n in names ==> n in profiles.values
    ensures forall x :: x in AllReferenceWarnings(providers, profiles, names) ==> x.UnknownProvider?
    ensures forall n, v :: UnknownProvider(n, v) in AllReferenceWarnings(providers, profiles, names) <==>
              n in names && v in ProviderList(profiles.values[n]) && !IsKnown(providers, v)
    decreases |names|
  {
    if names != [] {
      AllReferenceWarningsMembers(providers, profiles, names[1..]);
      assert forall n :: n in names <==> n == names[0] || n in names[1..];
    }
  }

  lemma {:induction false} AllProviderWarningsMembers(providers: Dict<ProviderConfig>, ids: seq<ProviderId>)
    requires forall pid :: pid in ids ==> pid in providers.values
    ensures forall x :: x in AllProviderWarnings(providers, ids) ==> !x.UnknownProvider?
    ensures forall x :: x in AllProviderWarnings(providers, ids) <==>
              !x.UnknownProvider? && x.provider in ids && x in ProviderWarnings(x.provider, providers.values[x.provider])
    decreases |ids|
  {
    if ids != [] {
      AllProviderWarningsMembers(providers, ids[1..]);
      assert forall pid :: pid in ids <==> pid == ids[0] || pid in ids[1..];
    }
  }

  /** Every profile entry names a defined provider. */
  ghost predicate ReferencesResolve(providers: Dict<ProviderConfig>, profiles: Dict<Profile>) {
    forall n, v :: n in profiles.values && v in ProviderList(profiles.values[n]) ==> IsKnown(providers, v)
  }

  /** Every provider has an `env_key` and a supported `sdk`. */
  ghost predicate ProvidersComplete(providers: Dict<ProviderConfig>) {
    forall pid :: pid in providers.values ==> ProviderComplete(providers.values[pid])
  }

  lemma {:induction false} ReferenceWarningsEmptyIff(providers: Dict<ProviderConfig>, profiles: Dict<Profile>, names: seq<string>)
    requires forall n :: n in names ==> n in profiles.values
    ensures AllReferenceWarnings(providers, profiles, names) == [] <==>
              forall n, v :: n in names && v in ProviderList(profiles.values[n]) ==> IsKnown(providers, v)
    decreases |names|
  {
    if names != [] {
      ReferenceWarningsEmptyIff(providers, profiles, names[1..]);
      assert forall n :: n in names <==> n == names[0] || n in names[1..];
    }
  }

  lemma {:induction false} ProviderWarningsEmptyIff(providers: Dict<ProviderConfig>, ids: seq<ProviderId>)
    requires forall pid :: pid in ids ==> pid in providers.values
    ensures AllProviderWarnings(providers, ids) == [] <==>
              forall pid :: pid in ids ==> ProviderComplete(providers.values[pid])
    decreases |ids|
  {
    if ids != [] {
      ProviderWarningsEmptyIff(providers, ids[1..]);
      assert forall pid :: pid in ids <==> pid == ids[0] || pid in ids[1..];
    }
  }

  /**
   No warning at all exactly when every profile entry names a defined
   provider and every provider has an `env_key` and a supported `sdk`.
   */
  lemma ValidateEmptyIff(providers: Dict<ProviderConfig>, profiles: Dict<Profile>)
    ensures ValidateConfig(providers, profiles) == [] <==>
              ReferencesResolve(providers, profiles) && ProvidersComplete(providers)
  {
    ReferenceWarningsEmptyIff(providers, profiles, profiles.keys);
    ProviderWarningsEmptyIff(providers, providers.keys);
  }

  /** An unknown-provider warning is issued for exactly the profile entries that name no provider. */
  lemma UnknownReferenceWarned(providers: Dict<ProviderConfig>, profiles: Dict<Profile>, n: string, v: Value)
    ensures UnknownProvider(n, v) in ValidateConfig(providers, profiles) <==>
              n in profiles.values && v in ProviderList(profiles.values[n]) && !IsKnown(providers, v)
  {
    AllReferenceWarningsMembers(providers, profiles, profiles.keys);
    AllProviderWarningsMembers(providers, providers.keys);
  }

  /** A provider without `sdk` gets both the missing-sdk and the unsupported-sdk warning. */
  lemma MissingSdkWarnedTwice(providers: Dict<ProviderConfig>, profiles: Dict<Profile>, pid: ProviderId)
    requires pid in providers.values && "sdk" !in providers.values[pid].values
    ensures MissingSdk(pid) in ValidateConfig(providers, profiles)
    ensures UnsupportedSdk(pid, None) in ValidateConfig(providers, profiles)
  {
    AllProviderWarningsMembers(providers, providers.keys);
    assert MissingSdk(pid) in ProviderWarnings(pid, providers.values[pid]);
  }

  /** The reference warnings all come before the provider warnings. */
  lemma ReferencesFirst(providers: Dict<ProviderConfig>, profiles: Dict<Profile>)
    ensures var w := ValidateConfig(providers, profiles);
            forall i, j :: 0 <= i < j < |w| && w[j].UnknownProvider? ==> w[i].UnknownProvider?
  {
    var refs := AllReferenceWarnings(providers, profiles, profiles.keys);
    var rest := AllProviderWarnings(providers, providers.keys);
    AllReferenceWarningsMembers(providers, profiles, profiles.keys);
    AllProviderWarningsMembers(providers, providers.keys);
    assert forall k :: 0 <= k < |rest| ==> !rest[k].UnknownProvider? by {
      forall k | 0 <= k < |rest| ensures !rest[k].UnknownProvider? {
        assert rest[k] in rest;
      }
    }
    assert forall k :: 0 <= k < |refs| ==> refs[k].UnknownProvider? by {
      forall k | 0 <= k < |refs| ensures refs[k].UnknownProvider? {
        assert refs[k] in refs;
      }
    }
  }
}

=== FILE: dicts.dfy ===
/**
 An insertion-ordered dictionary with string keys, the behaviour of a Python `dict`: a map
 from keys to values together with the order in which the keys were first
 inserted. Assigning to an existing key keeps its position, deleting a key
 keeps the order of the others, and iteration follows `keys`.
 */
module Dicts {
  import opened Wrappers

  /** No element occurs twice in `s`. */
  ghost predicate Distinct(s: seq<string>) {
    forall i, j :: 0 <= i < j < |s| ==> s[i] != s[j]
  }

  datatype RawDict<V> = RawDict(keys: seq<string>, values: map<string, V>)

  /** The keys are listed once each and are exactly the domain of the map. */
  ghost predicate WellFormed<V>(d: RawDict<V>) {
    && Distinct(d.keys)
    && (forall k :: k in d.keys <==> k in d.values)
  }

  type Dict<V> = d: RawDict<V> | WellFormed(d) witness RawDict([], map[])

  function Empty<V>(): (d: Dict<V>)
    ensures d.keys == [] && d.values == map[]
  {
    RawDict([], map[])
  }

  /** Python's `d.get(k)`. */
  function Get<V>(d: Dict<V>, k: string): (r: Option<V>)
    ensures r.Some? <==> k in d.keys
    ensures r.Some? ==> r.value == d.values[k]
  {
    if k in d.values then Some(d.values[k]) else None
  }

  /** The elements of `s` other than `k`, in their order. */
  function Without(s: seq<string>, k: string): (r: seq<string>)
    ensures forall x :: x in r <==> x in s && x != k
    ensures Distinct(s) ==> Distinct(r)
    ensures k !in s ==> r == s
    ensures |r| <= |s|
  {
    if s == [] then []
    else if s[0] == k then Without(s[1..], k)
    else
      var rest := Without(s[1..], k);
      assert Distinct(s) ==> Distinct(s[1..]) && s[0] !in rest;
      [s[0]] + rest
  }

  /** Python's `d[k] = v`: an existing key keeps its place, a new key goes last. */
  function Put<V>(d: Dict<V>, k: string, v: V): (r: Dict<V>)
    ensures forall q :: Get(r, q) == if q == k then Some(v) else Get(d, q)
    ensures k in d.keys ==> r.keys == d.keys
    ensures k !in d.keys ==> r.keys == d.keys + [k]
  {
    if k in d.values then RawDict(d.keys, d.values[k := v])
    else RawDict(d.keys + [k], d.values[k := v])
  }

  /** Python's `del d[k]` (a no-op when `k` is absent). */
  function Remove<V>(d: Dict<V>, k: string): (r: Dict<V>)
    ensures forall q :: Get(r, q) == if q == k then None else Get(d, q)
    ensures r.keys == Without(d.keys, k)
  {
    RawDict(Without(d.keys, k), d.values - {k})
  }

  /** The elements of `s` that are not in `ks`, in their order in `s`. */
  function Keep(s: seq<string>, ks: seq<string>): (r: seq<string>)
    ensures forall x :: x in r <==> x in s && x !in ks
  {
    if s == [] then []
    else (if s[0] in ks then [] else [s[0]]) + Keep(s[1..], ks)
  }

  /** Dropping `k` and then the keys of `ks` is dropping the keys of `[k] + ks`. */
  lemma {:induction false} KeepWithout(s: seq<string>, k: string, ks: seq<string>)
    ensures Keep(Without(s, k), ks) == Keep(s, [k] + ks)
  {
    if s != [] {
      KeepWithout(s[1..], k, ks);
      if s[0] != k {
        var w := Without(s, k);
        assert w[0] == s[0] && w[1..] == Without(s[1..], k);
      }
    }
  }

  /**
   Deletes every key of `ks`, one after the other. The keys that remain keep
   their order.
   */
  function RemoveAll<V>(d: Dict<V>, ks: seq<string>): (r: Dict<V>)
    ensures forall k :: Get(r, k) == if k in ks then None else Get(d, k)
    ensures r.keys == Keep(d.keys, ks)
    decreases |ks|
  {
    if ks == [] then
      assert Keep(d.keys, ks) == d.keys by { KeepNone(d.keys); }
      d
    else
      var r := RemoveAll(Remove(d, ks[0]), ks[1..]);
      KeepWithout(d.keys, ks[0], ks[1..]);
      assert [ks[0]] + ks[1..] == ks;
      r
  }

  /** Dropping no keys keeps the whole sequence. */
  lemma {:induction false} KeepNone(s: seq<string>)
    ensures Keep(s, []) == s
  {
    if s != [] {
      KeepNone(s[1..]);
    }
  }

  /**
   `r` consists of elements of `s` in the order they have in `s`: its first
   element is matched at the earliest place in `s`, then the rest after it.
   */
  ghost predicate Subsequence(r: seq<string>, s: seq<string>)
    decreases |s|
  {
    r == [] || (s != [] && if r[0] == s[0] then Subsequence(r[1..], s[1..]) else Subsequence(r, s[1..]))
  }

  /** The keys of `ks` that `d` does not hold yet, in the order of `ks`. */
  function Fresh<V>(d: Dict<V>, ks: seq<string>): (r: seq<string>)
    ensures forall k :: k in r <==> k in ks && k !in d.keys
    ensures Distinct(ks) ==> Distinct(r)
  {
    if ks == [] then []
    else
      var rest := Fresh(d, ks[1..]);
      assert Distinct(ks) ==> Distinct(ks[1..]) && ks[0] !in rest by {
        if Distinct(ks) {
          forall j | 0 <= j < |ks[1..]| ensures ks[1..][j] != ks[0] {
            assert ks[1..][j] == ks[j + 1];
          }
        }
      }
      (if ks[0] in d.values then [] else [ks[0]]) + rest
  }

  /** Putting a new element in front of a list without repeats keeps it without repeats. */
  lemma DistinctCons(x: string, s: seq<string>)
    requires Distinct(s) && x !in s
    ensures Distinct([x] + s)
  {
    forall i, j | 0 <= i < j < |[x] + s| ensures ([x] + s)[i] != ([x] + s)[j] {
      assert ([x] + s)[j] == s[j - 1];
    }
  }

  /** Appending the keys new to `d` to its own keys repeats none of them. */
  lemma AppendFreshDistinct<V>(d: Dict<V>, ks: seq<string>)
    requires Distinct(ks)
    ensures Distinct(d.keys + Fresh(d, ks))
    ensures forall k :: k in d.keys + Fresh(d, ks) <==> k in d.keys || k in ks
  {
    var keys := d.keys + Fresh(d, ks);
    forall i, j | 0 <= i < j < |keys| ensures keys[i] != keys[j] {
      if j >= |d.keys| && i < |d.keys| {
        assert keys[j] in Fresh(d, ks);
      }
    }
  }

  /**
   Python's `d.update(e)`: every entry of `e` is assigned in `e`'s order, so
   keys already in `d` keep their place and take `e`'s value, and the keys
   new to `d` follow in `e`'s order.
   */
  function Update<V>(d: Dict<V>, e: Dict<V>): (r: Dict<V>)
    ensures forall k :: k in r.values <==> k in d.values || k in e.values
    ensures forall k :: k in e.values ==> r.values[k] == e.values[k]
    ensures forall k :: k in d.values && k !in e.values ==> r.values[k] == d.values[k]
    ensures r.keys == d.keys + Fresh(d, e.keys)
  {
    var keys := d.keys + Fresh(d, e.keys);
    AppendFreshDistinct(d, e.keys);
    RawDict(keys, d.values + e.values)
  }
}

=== FILE: ratelimit.dfy ===
/**
 Failure classification of the cascade router (`_is_rate_limit_error`):
 decides from a provider error whether the provider is rate-limited and, if
 the error says so, after how many seconds it may be retried.
 */
module RateLimit {
  import opened Wrappers
  import opened Text

  /**
   A failed provider invocation as the router sees it: the exception's type
   name, its text (`str(e)`), and the headers of the HTTP response attached
   to it, when it has one.
   */
  datatype ProviderError = ProviderError(typeName: string, message: string, headers: Option<seq<(string, string)>>)

  /** The characters of the class `[:\s]`. */
  predicate IsSeparator(c: char) {
    c == ':' || IsSpace(c)
  }

  /** The end of the longest run of characters satisfying `f` that starts at `p`. */
  function SkipWhile(s: string, p: nat, f: char -> bool): (q: nat)
    requires p <= |s|
    ensures p <= q <= |s|
    ensures forall i :: p <= i < q ==> f(s[i])
    ensures q == |s| || !f(s[q])
    decreases |s| - p
  {
    if p < |s| && f(s[p]) then SkipWhile(s, p + 1, f) else p
  }

  /** Where a match of the retry-after pattern starts and where its digit group lies. */
  datatype Span = Span(start: nat, digitsFrom: nat, digitsTo: nat)

  /**
   The pattern `retry.?after[:\s]+(\d+)` matches `s` from position `i`, with
   "after" at `a` and the group `(\d+)` at `[k, e)`; the group is as long as
   the greedy `\d+` makes it. (`.` is any character but a newline.)
   */
  ghost predicate Witness(s: string, i: int, a: int, k: int, e: int) {
    && 0 <= i && i + 5 <= |s| && s[i..i + 5] == "retry"
    && (a == i + 5 || (a == i + 6 && i + 5 < |s| && s[i + 5] != '\n'))
    && a + 5 <= |s| && s[a..a + 5] == "after"
    && a + 5 < k <= |s| && (forall p :: a + 5 <= p < k ==> IsSeparator(s[p]))
    && k < e <= |s| && (forall p :: k <= p < e ==> IsDigit(s[p]))
    && (e == |s| || !IsDigit(s[e]))
  }

  /** Tries the pattern at position `i` only. */
  function MatchAt(s: string, i: nat): (r: Option<Span>)
    requires i <= |s|
    ensures r.Some? ==> r.value.start == i
    ensures r.Some? ==> Witness(s, i, i + 5, r.value.digitsFrom, r.value.digitsTo)
                        || Witness(s, i, i + 6, r.value.digitsFrom, r.value.digitsTo)
  {
    if !(i + 5 <= |s| && s[i..i + 5] == "retry") then None
    else
      var a := if i + 11 <= |s| && s[i + 5] != '\n' && s[i + 6..i + 11] == "after" then i + 6 else i + 5;
      if !(a + 5 <= |s| && s[a..a + 5] == "after") then None
      else
        var k := SkipWhile(s, a + 5, IsSeparator);
        if k == a + 5 || k == |s| || !IsDigit(s[k]) then None
        else
          var e := SkipWhile(s, k, IsDigit);
          Some(Span(i, k, e))
  }

  /** Every match the pattern has at `i` is the one `MatchAt` finds. */
  lemma MatchAtComplete(s: string, i: nat, a: int, k: int, e: int)
    requires i <= |s|
    requires Witness(s, i, a, k, e)
    ensures MatchAt(s, i) == Some(Span(i, k, e))
  {
    if a == i + 5 && i + 11 <= |s| && s[i + 5] != '\n' && s[i + 6..i + 11] == "after" {
      assert s[i + 6] == s[a..a + 5][1] == 'f';
      assert s[i + 6] == s[i + 6..i + 11][0] == 'a';
    }
    var k' := SkipWhile(s, a + 5, IsSeparator);
    assert !IsSeparator(s[k]);
    assert k' == k;
    var e' := SkipWhile(s, k, IsDigit);
    assert e' == e;
  }

  /** The leftmost match starting at or after `i` (what `re.search` returns). */
  function Search(s: string, i: nat): (r: Option<Span>)
    requires i <= |s|
    ensures r.Some? ==> i <= r.value.start <= |s| && MatchAt(s, r.value.start) == r
    ensures forall j :: i <= j <= |s| && (r.None? || j < r.value.start) ==> MatchAt(s, j).None?
    decreases |s| - i
  {
    var m := MatchAt(s, i);
    if m.Some? then m
    else if i == |s| then None
    else Search(s, i + 1)
  }

  /** A match of the pattern that starts no later than any other: the one `re.search` reports. */
  ghost predicate Leftmost(s: string, i: int, a: int, k: int, e: int) {
    && Witness(s, i, a, k, e)
    && forall i', a', k', e' :: Witness(s, i', a', k', e') ==> i <= i'
  }

  /**
   The delay the message itself names: the integer in the digit group of
   the leftmost match (`int(match.group(1))`), and none without a match.
   */
  function RetryAfterInMessage(s: string): (r: Option<nat>)
    ensures r.Some? <==> exists i, a, k, e :: Witness(s, i, a, k, e)
    ensures r.Some? ==> exists i, a, k, e :: Leftmost(s, i, a, k, e) && r.value == DigitsValue(s[k..e])
    ensures forall i, a, k, e :: Leftmost(s, i, a, k, e) ==> r == Some(DigitsValue(s[k..e]))
  {
    var m := Search(s, 0);
    if m.None? then
      assert forall i, a, k, e :: Witness(s, i, a, k, e) ==> false by {
        forall i, a, k, e | Witness(s, i, a, k, e) ensures false {
          MatchAtComplete(s, i, a, k, e);
        }
      }
      None
    else
      var sp := m.value;
      var r := Some(DigitsValue(s[sp.digitsFrom..sp.digitsTo]));
      SearchIsLeftmost(s, sp);
      r
  }

  /** The span `re.search` finds is a leftmost match, and every leftmost match has its digit group. */
  lemma SearchIsLeftmost(s: string, sp: Span)
    requires Search(s, 0) == Some(sp)
    ensures Leftmost(s, sp.start, sp.start + 5, sp.digitsFrom, sp.digitsTo)
            || Leftmost(s, sp.start, sp.start + 6, sp.digitsFrom, sp.digitsTo)
    ensures forall i, a, k, e :: Leftmost(s, i, a, k, e) ==> i == sp.start && k == sp.digitsFrom && e == sp.digitsTo
  {
    assert MatchAt(s, sp.start) == Some(sp);
    forall i', a', k', e' | Witness(s, i', a', k', e') ensures sp.start <= i' {
      MatchAtComplete(s, i', a', k', e');
    }
    forall i, a, k, e | Leftmost(s, i, a, k, e) ensures i == sp.start && k == sp.digitsFrom && e == sp.digitsTo {
      assert Witness(s, sp.start, sp.start + 5, sp.digitsFrom, sp.digitsTo)
          || Witness(s, sp.start, sp.start + 6, sp.digitsFrom, sp.digitsTo);
      MatchAtComplete(s, i, a, k, e);
    }
  }

  /**
   The values of every header whose name is `name` up to ASCII case, in
   header order.
   */
  function HeaderValues(headers: seq<(string, string)>, name: string): (vs: seq<string>)
    ensures |vs| <= |headers|
    ensures vs == [] <==> forall i :: 0 <= i < |headers| ==> Lower(headers[i].0) != name
    ensures forall v :: v in vs <==> exists i :: 0 <= i < |headers| && Lower(headers[i].0) == name && headers[i].1 == v
  {
    if headers == [] then []
    else
      var rest := HeaderValues(headers[1..], name);
      assert forall i :: 1 <= i < |headers| ==> headers[1..][i - 1] == headers[i];
      (if Lower(headers[0].0) == name then [headers[0].1] else []) + rest
  }

  /** `HeaderValues` gives two or more values iff two headers match. */
  lemma {:induction false} HeaderValuesMany(headers: seq<(string, string)>, name: string)
    ensures |HeaderValues(headers, name)| > 1 <==>
            exists i, j :: 0 <= i < j < |headers| && Matches(headers, name, i) && Matches(headers, name, j)
  {
    if headers != [] {
      var tail := headers[1..];
      var rest := HeaderValues(tail, name);
      var vs := HeaderValues(headers, name);
      assert vs == (if Matches(headers, name, 0) then [headers[0].1] else []) + rest;
      hide HeaderValues, Lower;
      HeaderValuesMany(tail, name);
      assert forall i :: 1 <= i < |headers| ==> Matches(tail, name, i - 1) == Matches(headers, name, i);
      if exists i, j :: 0 <= i < j < |headers| && Matches(headers, name, i) && Matches(headers, name, j) {
        var i, j :| 0 <= i < j < |headers| && Matches(headers, name, i) && Matches(headers, name, j);
        if i == 0 {
          assert Matches(tail, name, j - 1);
        } else {
          assert Matches(tail, name, i - 1) && Matches(tail, name, j - 1);
        }
      }
      if |vs| > 1 {
        if Matches(headers, name, 0) {
          assert rest != [];
          var j :| 0 <= j < |tail| && Lower(tail[j].0) == name;
          assert Matches(headers, name, 0) && Matches(headers, name, j + 1);
        } else {
          var i, j :| 0 <= i < j < |tail| && Matches(tail, name, i) && Matches(tail, name, j);
          assert Matches(headers, name, i + 1) && Matches(headers, name, j + 1);
        }
      }
    }
  }

  /** The first value `HeaderValues` gives is that of the first matching header. */
  lemma {:induction false} HeaderValuesFirst(headers: seq<(string, string)>, name: string, i: nat)
    requires i < |headers| && Matches(headers, name, i) && NoMatchBefore(headers, name, i)
    ensures HeaderValues(headers, name) != [] && HeaderValues(headers, name)[0] == headers[i].1
  {
    var tail := headers[1..];
    var rest := HeaderValues(tail, name);
    assert HeaderValues(headers, name) == (if Matches(headers, name, 0) then [headers[0].1] else []) + rest;
    hide HeaderValues, Lower;
    if i > 0 {
      assert NoMatchBefore(tail, name, i - 1) by {
        forall j | 0 <= j < i - 1 ensures !Matches(tail, name, j) {
          assert tail[j] == headers[j + 1] && !Matches(headers, name, j + 1);
        }
      }
      assert tail[i - 1] == headers[i];
      HeaderValuesFirst(tail, name, i - 1);
    }
  }

  /** Header `i` is named `name` up to ASCII case. */
  predicate Matches(headers: seq<(string, string)>, name: string, i: int) {
    0 <= i < |headers| && Lower(headers[i].0) == name
  }

  /** No header before position `i` is named `name`. */
  predicate NoMatchBefore(headers: seq<(string, string)>, name: string, i: int) {
    forall j :: 0 <= j < i ==> !Matches(headers, name, j)
  }

  /** Several values of one header read as one, joined by ", " (what an `httpx` header lookup returns). */
  function JoinValues(vs: seq<string>): (r: string)
    requires vs != []
    ensures |r| >= |vs[0]| && r[..|vs[0]|] == vs[0]
    ensures |vs| == 1 ==> r == vs[0]
    ensures |vs| > 1 ==> |r| > |vs[0]| && r[|vs[0]|] == ','
  {
    if |vs| == 1 then vs[0] else vs[0] + ", " + JoinValues(vs[1..])
  }

  /**
   The delay the `retry-after` response header gives: `int` of its value.
   No header, no `retry-after` among them, or a value `int` rejects give
   none; so does a repeated header, whose joined values are no integer.
   */
  function RetryAfterHeader(headers: Option<seq<(string, string)>>): (r: Option<int>)
    ensures headers.None? ==> r.None?
    ensures headers.Some? ==> var vs := HeaderValues(headers.value, "retry-after");
            && (vs == [] ==> r.None?)
            && (|vs| == 1 ==> r == ParseInt(vs[0]))
            && (|vs| > 1 ==> r.None?)
  {
    if headers.None? then None
    else
      var vs := HeaderValues(headers.value, "retry-after");
      if vs == [] then None
      else
        if |vs| > 1 then JoinedRejected(vs); ParseInt(JoinValues(vs))
        else ParseInt(JoinValues(vs))
  }

  /**
   The header delay read off the headers themselves: two `retry-after`
   headers give none, and a single one gives `int` of its value.
   */
  lemma RetryAfterFromHeaders(headers: seq<(string, string)>)
    ensures (exists i, j :: 0 <= i < j < |headers| && Matches(headers, "retry-after", i) && Matches(headers, "retry-after", j))
            ==> RetryAfterHeader(Some(headers)).None?
    ensures forall i :: Matches(headers, "retry-after", i) && (forall j :: Matches(headers, "retry-after", j) ==> j == i) ==>
                          RetryAfterHeader(Some(headers)) == ParseInt(headers[i].1)
  {
    HeaderValuesMany(headers, "retry-after");
    forall i | Matches(headers, "retry-after", i) && (forall j :: Matches(headers, "retry-after", j) ==> j == i)
      ensures RetryAfterHeader(Some(headers)) == ParseInt(headers[i].1)
    {
      HeaderValuesFirst(headers, "retry-after", i);
    }
  }

  /** Two or more joined values hold a comma, which `int` rejects. */
  lemma JoinedRejected(vs: seq<string>)
    requires |vs| > 1
    ensures ParseInt(JoinValues(vs)).None?
  {
    var v := JoinValues(vs);
    assert !IntChar(v[|vs[0]|]);
  }

  /** An HTTP 429 or a "rate ... limit" wording. */
  predicate SaysRateLimited(m: string) {
    Contains(m, "429") || (Contains(m, "rate") && Contains(m, "limit"))
  }

  /** A quota-exhaustion wording. */
  predicate SaysQuotaExhausted(m: string) {
    Contains(m, "quota") || Contains(m, "insufficient")
  }

  /**
   Classifies a provider error: `(isRateLimit, retryAfterSeconds)`. The
   text is folded to lower case first. A 429 or "rate"+"limit" wording is a
   rate limit whose delay comes from a parseable `retry-after` header, else
   from the retry-after pattern in the text; a quota wording is a rate limit
   without a delay; anything else is not a rate limit.
   */
  function Classify(e: ProviderError): (r: (bool, Option<int>))
    ensures var m := Lower(e.message);
            r.0 <==> SaysRateLimited(m) || SaysQuotaExhausted(m)
    ensures r.1.Some? ==> SaysRateLimited(Lower(e.message))
    ensures SaysRateLimited(Lower(e.message)) && RetryAfterHeader(e.headers).Some? ==> r.1 == RetryAfterHeader(e.headers)
    ensures SaysRateLimited(Lower(e.message)) && RetryAfterHeader(e.headers).None? ==>
              (r.1.Some? <==> exists i, a, k, e' :: Witness(Lower(e.message), i, a, k, e'))
    ensures SaysRateLimited(Lower(e.message)) && RetryAfterHeader(e.headers).None? ==>
              forall i, a, k, e' :: Leftmost(Lower(e.message), i, a, k, e') ==>
                r.1 == Some(DigitsValue(Lower(e.message)[k..e']) as int)
  {
    var m := Lower(e.message);
    if SaysRateLimited(m) then
      var fromText: Option<int> := match RetryAfterInMessage(m) case Some(n) => Some(n) case None => None;
      var fromHeader := RetryAfterHeader(e.headers);
      (true, if fromHeader.Some? then fromHeader else fromText)
    else if SaysQuotaExhausted(m) then (true, None)
    else (false, None)
  }

  /** The longest prefix of `s` with at most `n` characters (Python's `s[:n]`). */
  function Truncate(s: string, n: nat): (r: string)
    ensures r <= s
    ensures |r| == if |s| <= n then |s| else n
  {
    if |s| <= n then s else s[..n]
  }

  /** The reason recorded for a failed attempt: type name, colon, first 200 characters of the text. */
  function ErrorReason(e: ProviderError): string {
    e.typeName + ": " + Truncate(e.message, 200)
  }
}

=== FILE: router.dfy ===
/**
 The cascade router: walks a profile's provider list in order, skips the
 providers it cannot use, invokes the others one at a time and returns the
 first success; on failure it classifies the error, strikes rate-limited
 providers and records an attempt, and when the list runs out it reports
 every attempt. The provider adapter is an oracle, the environment a
 credential map, and the clock an explicit `now`, so a call is a function of
 its inputs.
 */
module CascadeRouter {
  import opened Wrappers
  import opened Dicts
  import opened Config
  import opened StrikeTracker
  import opened RateLimit

  /** Token counts reported by a provider, when it reports them. */
  datatype Usage = Usage(inputTokens: nat, outputTokens: nat)

  /** What the adapter extracts from a successful response, and the model it asked for. */
  datatype Reply = Reply(text: string, model: Option<Value>, usage: Option<Usage>)

  /** The outcome of one provider invocation: a reply, or the exception it raised. */
  datatype Invocation = Replied(reply: Reply) | Raised(error: ProviderError)

  /**
   The provider adapter, as an oracle: what invoking provider `pid` from
   position `k` of the profile's list yields. (Keying by position lets a
   provider listed twice behave differently each time.)
   */
  type Oracle = (nat, ProviderId) -> Invocation

  /** The process environment: variable name to value. */
  type Env = map<string, string>

  /** `RouterResult`: the reply of the serving provider, with its id and display name. */
  datatype RouterResult = RouterResult(text: string, providerId: ProviderId, providerName: Value,
                                       model: Option<Value>, usage: Option<Usage>)

  /** One entry of the exhaustion report. */
  datatype Attempt =
    | Skipped(provider: ProviderId, reason: string)                     // status "skipped": no API key
    | Struck(provider: ProviderId, reason: string, renewsAt: Option<int>) // status "struck"
    | Failed(provider: ProviderId, reason: string, rateLimited: bool)     // status "failed"

  /** How `call` ends: a result, `KeyError` for an unknown profile, or `AllProvidersExhausted`. */
  datatype CallOutcome =
    | Served(result: RouterResult)
    | UnknownProfile(profile: string, available: seq<string>)
    | Exhausted(attempts: seq<Attempt>)

  /**
   A call's outcome, the tracker afterwards, and the positions of the
   profile's list at which the adapter was invoked, in order.
   */
  datatype Run = Run(outcome: CallOutcome, tracker: Tracker, invoked: seq<nat>)

  /** The loaded configuration the router holds. */
  datatype Router = Router(providers: Dict<ProviderConfig>, profiles: Dict<Profile>)

  const NoApiKeyReason: string := "no API key"
  const DefaultStrikeReason: string := "rate limited"

  /**
   `_get_api_key`: the value of the environment variable the provider's
   `env_key` names; no variable name, or an unset variable, gives none.
   */
  function ApiKey(cfg: ProviderConfig, env: Env): (k: Option<string>)
    ensures k.Some? <==> exists name :: Get(cfg, "env_key") == Some(Str(name)) && name != "" && name in env
    ensures k.Some? ==> k.value == env[Get(cfg, "env_key").value.s]
  {
    var v := Get(cfg, "env_key");
    if v.Some? && v.value.Str? && v.value.s != "" && v.value.s in env then Some(env[v.value.s]) else None
  }

  /** The provider has a usable (non-empty) API key. */
  predicate HasApiKey(cfg: ProviderConfig, env: Env) {
    var k := ApiKey(cfg, env);
    k.Some? && k.value != ""
  }

  /** The provider's display name, defaulting to its id. */
  function DisplayName(pid: ProviderId, cfg: ProviderConfig): Value {
    Get(cfg, "name").GetOr(Str(pid))
  }

  /** `rate_limit.renewal`, defaulting to rolling. */
  function RenewalPolicy(cfg: ProviderConfig): string {
    var rl := Get(cfg, "rate_limit");
    if rl.None? || !rl.value.Obj? then Rolling
    else
      var renewal := Get(rl.value.fields, "renewal");
      if renewal.Some? && renewal.value.Str? then renewal.value.s else Rolling
  }

  function ResultOf(pid: ProviderId, cfg: ProviderConfig, reply: Reply): RouterResult {
    RouterResult(reply.text, pid, DisplayName(pid, cfg), reply.model, reply.usage)
  }

  /** Position `k` names a defined provider that has an API key, so the cascade may invoke it. */
  predicate Invocable(r: Router, env: Env, items: seq<Value>, k: int) {
    0 <= k < |items| && IsKnown(r.providers, items[k]) && HasApiKey(r.providers.values[items[k].s], env)
  }

  /** The adapter raises at position `k`. */
  predicate FailsAt(oracle: Oracle, items: seq<Value>, k: int) {
    0 <= k < |items| && items[k].Str? && oracle(k, items[k].s).Raised?
  }

  /** The adapter replies at position `k`, and `res` is the result built from that reply. */
  predicate ServedBy(r: Router, oracle: Oracle, items: seq<Value>, k: int, res: RouterResult) {
    && 0 <= k < |items|
    && IsKnown(r.providers, items[k])
    && oracle(k, items[k].s).Replied?
    && res == ResultOf(items[k].s, r.providers.values[items[k].s], oracle(k, items[k].s).reply)
  }

  predicate Increasing(s: seq<nat>) {
    forall a, b :: 0 <= a < b < |s| ==> s[a] < s[b]
  }

  /** Appending a position beyond every earlier one keeps a sequence increasing. */
  lemma AppendIncreasing(s: seq<nat>, i: nat)
    requires Increasing(s) && forall k :: k in s ==> k < i
    ensures Increasing(s + [i]) && forall k :: k in s + [i] ==> k < i + 1
  {
    forall a, b | 0 <= a < b < |s + [i]| ensures (s + [i])[a] < (s + [i])[b] {
      if b == |s| { assert s[a] in s; }
    }
  }

  /** The defined providers a list names, in list order, with repetitions. */
  function KnownIds(providers: Dict<ProviderConfig>, items: seq<Value>): (ids: seq<ProviderId>)
    ensures |ids| <= |items|
    ensures forall pid :: pid in ids ==> pid in providers.values
  {
    if items == [] then []
    else (if IsKnown(providers, items[0]) then [items[0].s] else []) + KnownIds(providers, items[1..])
  }

  /** The provider of each attempt, in order. */
  function Providers(attempts: seq<Attempt>): (ps: seq<ProviderId>)
    ensures |ps| == |attempts|
    ensures forall k :: 0 <= k < |attempts| ==> ps[k] == attempts[k].provider
  {
    seq(|attempts|, k requires 0 <= k < |attempts| => attempts[k].provider)
  }

  /** What visiting one entry of the list does: go on to the next entry, or stop with a result. */
  datatype Step =
    | Pass(tracker: Tracker, attempt: Option<Attempt>, invoked: bool)
    | Stop(tracker: Tracker, result: RouterResult)

  /**
   One iteration of the loop of `call`, for position `i`: an undefined
   provider is passed over silently; one without an API key is recorded as
   skipped; a struck one is recorded with its strike's reason and renewal
   time; any other is invoked, and either serves the call or fails, in which
   case a rate-limit failure strikes it under its renewal policy.
   */
  function Visit(r: Router, env: Env, now: int, oracle: Oracle, items: seq<Value>, i: nat, t: Tracker): (v: Step)
    requires i < |items|
    ensures v.Stop? ==> Invocable(r, env, items, i) && ServedBy(r, oracle, items, i, v.result)
    ensures v.Pass? && v.invoked ==> Invocable(r, env, items, i) && FailsAt(oracle, items, i)
    ensures v.Pass? ==> (v.attempt.Some? <==> IsKnown(r.providers, items[i]))
    ensures v.Pass? && v.attempt.Some? ==> v.attempt.value.provider == items[i].s
    ensures Consistent(t) ==> Consistent(v.tracker)
  {
    var item := items[i];
    if !IsKnown(r.providers, item) then Pass(t, None, false)
    else
      var pid := item.s;
      var cfg := r.providers.values[pid];
      if !HasApiKey(cfg, env) then Pass(t, Some(Skipped(pid, NoApiKeyReason)), false)
      else
        var (available, t1) := IsAvailable(t, pid, now);
        if !available then
          var rec := t1.strikes.values[pid];
          Pass(t1, Some(Struck(pid, rec.reason.GetOr(DefaultStrikeReason), rec.renewsAt)), false)
        else Invoke(pid, cfg, now, oracle(i, pid), t1)
  }

  /**
   Invoking an available provider: a reply serves the call; an exception is
   classified, a rate-limit failure strikes the provider under its renewal
   policy and the retry delay, and the failure is recorded either way.
   */
  function Invoke(pid: ProviderId, cfg: ProviderConfig, now: int, outcome: Invocation, t: Tracker): (v: Step)
    ensures v.Stop? <==> outcome.Replied?
    ensures v.Stop? ==> v.tracker == t && v.result == ResultOf(pid, cfg, outcome.reply)
    ensures v.Pass? ==> v.invoked && v.attempt.Some? && v.attempt.value.Failed? && v.attempt.value.provider == pid
    ensures v.Pass? ==> var (rateLimited, retryAfter) := Classify(outcome.error);
                        && v.attempt.value == Failed(pid, ErrorReason(outcome.error), rateLimited)
                        && (rateLimited ==> v.tracker == Strike(t, pid, ErrorReason(outcome.error), RenewalPolicy(cfg), retryAfter, now))
                        && (!rateLimited ==> v.tracker == t)
    ensures Consistent(t) ==> Consistent(v.tracker)
  {
    match outcome
    case Replied(reply) => Stop(t, ResultOf(pid, cfg, reply))
    case Raised(e) =>
      var (rateLimited, retryAfter) := Classify(e);
      var reason := ErrorReason(e);
      var t2 := if rateLimited then Strike(t, pid, reason, RenewalPolicy(cfg), retryAfter, now) else t;
      Pass(t2, Some(Failed(pid, reason, rateLimited)), true)
  }

  /**
   The five ways an entry is handled: an undefined provider is passed over
   without a record; a defined one without a key is recorded as skipped; a
   usable one with a strike in force is recorded as struck with the stored
   reason (by default "rate limited") and renewal time; a usable one without
   a record is invoked; a usable one whose strike has expired is invoked
   after the availability check has deleted that strike and saved the store.
   */
  lemma VisitCases(r: Router, env: Env, now: int, oracle: Oracle, items: seq<Value>, i: nat, t: Tracker)
    requires i < |items|
    ensures var v := Visit(r, env, now, oracle, items, i, t);
            && (!IsKnown(r.providers, items[i]) ==> v == Pass(t, None, false))
            && (IsKnown(r.providers, items[i]) && !HasApiKey(r.providers.values[items[i].s], env) ==>
                  v == Pass(t, Some(Skipped(items[i].s, NoApiKeyReason)), false))
            && (Invocable(r, env, items, i) && items[i].s in t.strikes.values && !Expired(t.strikes.values[items[i].s], now) ==>
                  var rec := t.strikes.values[items[i].s];
                  v == Pass(t, Some(Struck(items[i].s, rec.reason.GetOr(DefaultStrikeReason), rec.renewsAt)), false))
            && (Invocable(r, env, items, i) && items[i].s !in t.strikes.values ==>
                  v == Invoke(items[i].s, r.providers.values[items[i].s], now, oracle(i, items[i].s), t))
            && (Invocable(r, env, items, i) && items[i].s in t.strikes.values && Expired(t.strikes.values[items[i].s], now) ==>
                  v == Invoke(items[i].s, r.providers.values[items[i].s], now, oracle(i, items[i].s),
                              IsAvailable(t, items[i].s, now).1))
  {
  }

  /**
   The loop of `call` from position `i` of the list, with the tracker,
   attempts and invocations so far.
   */
  function Cascade(r: Router, env: Env, now: int, oracle: Oracle, items: seq<Value>, i: nat,
                   t: Tracker, attempts: seq<Attempt>, invoked: seq<nat>): (run: Run)
    requires i <= |items|
    ensures !run.outcome.UnknownProfile?
    ensures Consistent(t) ==> Consistent(run.tracker)
    decreases |items| - i
  {
    if i == |items| then Run(Exhausted(attempts), t, invoked)
    else
      match Visit(r, env, now, oracle, items, i, t)
      case Stop(t1, result) => Run(Served(result), t1, invoked + [i])
      case Pass(t1, attempt, here) =>
        Cascade(r, env, now, oracle, items, i + 1, t1, Record(attempts, attempt), Log(invoked, i, here))
  }

  /** The attempts, with the one just made, if any. */
  function Record(attempts: seq<Attempt>, attempt: Option<Attempt>): seq<Attempt> {
    if attempt.Some? then attempts + [attempt.value] else attempts
  }

  /** The invocations, with position `i` if the adapter was just invoked there. */
  function Log(invoked: seq<nat>, i: nat, here: bool): seq<nat> {
    if here then invoked + [i] else invoked
  }

  /**
   Unfolding one iteration: a stop ends the call with the result, a pass
   continues at the next position with the attempt and invocation recorded.
   */
  lemma CascadeStep(r: Router, env: Env, now: int, oracle: Oracle, items: seq<Value>, i: nat,
                    t: Tracker, attempts: seq<Attempt>, invoked: seq<nat>)
    requires i < |items|
    ensures var v := Visit(r, env, now, oracle, items, i, t);
            var run := Cascade(r, env, now, oracle, items, i, t, attempts, invoked);
            && (v.Stop? ==> run.outcome == Served(v.result) && run.invoked == invoked + [i])
            && (v.Pass? ==> run == Cascade(r, env, now, oracle, items, i + 1, v.tracker,
                                           Record(attempts, v.attempt), Log(invoked, i, v.invoked)))
  {
  }

  /** A cascade only appends to the invocations it started with. */
  lemma {:induction false} CascadeInvokedPrefix(r: Router, env: Env, now: int, oracle: Oracle, items: seq<Value>, i: nat,
                                                t: Tracker, attempts: seq<Attempt>, invoked: seq<nat>)
    requires i <= |items|
    ensures var run := Cascade(r, env, now, oracle, items, i, t, attempts, invoked);
            |invoked| <= |run.invoked| && run.invoked[..|invoked|] == invoked
    decreases |items| - i
  {
    hide Visit;
    if i < |items| {
      CascadeStep(r, env, now, oracle, items, i, t, attempts, invoked);
      var v := Visit(r, env, now, oracle, items, i, t);
      if v.Pass? {
        var invoked' := Log(invoked, i, v.invoked);
        CascadeInvokedPrefix(r, env, now, oracle, items, i + 1, v.tracker, Record(attempts, v.attempt), invoked');
        var run := Cascade(r, env, now, oracle, items, i + 1, v.tracker, Record(attempts, v.attempt), invoked');
        assert run.invoked[..|invoked|] == run.invoked[..|invoked'|][..|invoked|];
      }
    }
  }

  /** The positions a cascade invokes lie at or after its start and name defined providers with a key. */
  lemma {:induction false} CascadeInvokedUsable(r: Router, env: Env, now: int, oracle: Oracle, items: seq<Value>, i: nat,
                                                t: Tracker, attempts: seq<Attempt>, invoked: seq<nat>)
    requires i <= |items|
    ensures var run := Cascade(r, env, now, oracle, items, i, t, attempts, invoked);
            forall j :: |invoked| <= j < |run.invoked| ==> i <= run.invoked[j] && Invocable(r, env, items, run.invoked[j])
    decreases |items| - i
  {
    hide Visit;
    if i < |items| {
      CascadeStep(r, env, now, oracle, items, i, t, attempts, invoked);
      var v := Visit(r, env, now, oracle, items, i, t);
      if v.Pass? {
        var invoked' := Log(invoked, i, v.invoked);
        CascadeInvokedUsable(r, env, now, oracle, items, i + 1, v.tracker, Record(attempts, v.attempt), invoked');
        CascadeInvokedPrefix(r, env, now, oracle, items, i + 1, v.tracker, Record(attempts, v.attempt), invoked');
        var run := Cascade(r, env, now, oracle, items, i + 1, v.tracker, Record(attempts, v.attempt), invoked');
        if v.invoked {
          assert run.invoked[|invoked|] == run.invoked[..|invoked'|][|invoked|] == i;
        }
      }
    }
  }

  /** The invocations of a cascade keep list order and never revisit a position. */
  lemma {:induction false} CascadeInvocationsOrdered(r: Router, env: Env, now: int, oracle: Oracle, items: seq<Value>, i: nat,
                                                     t: Tracker, attempts: seq<Attempt>, invoked: seq<nat>)
    requires i <= |items|
    requires Increasing(invoked) && forall k :: k in invoked ==> k < i
    ensures Increasing(Cascade(r, env, now, oracle, items, i, t, attempts, invoked).invoked)
    decreases |items| - i
  {
    hide Visit;
    if i < |items| {
      CascadeStep(r, env, now, oracle, items, i, t, attempts, invoked);
      AppendIncreasing(invoked, i);
      var v := Visit(r, env, now, oracle, items, i, t);
      if v.Pass? {
        CascadeInvocationsOrdered(r, env, now, oracle, items, i + 1, v.tracker, Record(attempts, v.attempt), Log(invoked, i, v.invoked));
      }
    }
  }

  /** Every invocation of a cascade except a final successful one failed. */
  lemma {:induction false} CascadeFailures(r: Router, env: Env, now: int, oracle: Oracle, items: seq<Value>, i: nat,
                                           t: Tracker, attempts: seq<Attempt>, invoked: seq<nat>)
    requires i <= |items|
    ensures var run := Cascade(r, env, now, oracle, items, i, t, attempts, invoked);
            forall j :: |invoked| <= j < |run.invoked| && (run.outcome.Exhausted? || j < |run.invoked| - 1) ==>
              FailsAt(oracle, items, run.invoked[j])
    decreases |items| - i
  {
    hide Visit;
    if i < |items| {
      CascadeStep(r, env, now, oracle, items, i, t, attempts, invoked);
      var v := Visit(r, env, now, oracle, items, i, t);
      var run := Cascade(r, env, now, oracle, items, i, t, attempts, invoked);
      if v.Pass? {
        var attempts' := Record(attempts, v.attempt);
        var invoked' := Log(invoked, i, v.invoked);
        CascadeFailures(r, env, now, oracle, items, i + 1, v.tracker, attempts', invoked');
        CascadeInvokedPrefix(r, env, now, oracle, items, i + 1, v.tracker, attempts', invoked');
        assert run == Cascade(r, env, now, oracle, items, i + 1, v.tracker, attempts', invoked');
        forall j | |invoked| <= j < |run.invoked| && (run.outcome.Exhausted? || j < |run.invoked| - 1)
          ensures FailsAt(oracle, items, run.invoked[j])
        {
          if j < |invoked'| {
            assert run.invoked[j] == run.invoked[..|invoked'|][j] == i;
          }
        }
      } else {
        assert run.outcome.Served? && |run.invoked| == |invoked| + 1;
      }
    }
  }

  /** A served cascade was served by the reply of its last invocation. */
  lemma {:induction false} CascadeServed(r: Router, env: Env, now: int, oracle: Oracle, items: seq<Value>, i: nat,
                                         t: Tracker, attempts: seq<Attempt>, invoked: seq<nat>)
    requires i <= |items|
    ensures var run := Cascade(r, env, now, oracle, items, i, t, attempts, invoked);
            run.outcome.Served? ==>
              |run.invoked| > |invoked| && ServedBy(r, oracle, items, run.invoked[|run.invoked| - 1], run.outcome.result)
    decreases |items| - i
  {
    hide Visit;
    if i < |items| {
      CascadeStep(r, env, now, oracle, items, i, t, attempts, invoked);
      var v := Visit(r, env, now, oracle, items, i, t);
      if v.Pass? {
        CascadeServed(r, env, now, oracle, items, i + 1, v.tracker, Record(attempts, v.attempt), Log(invoked, i, v.invoked));
      } else {
        assert (invoked + [i])[|invoked|] == i;
      }
    }
  }

  /**
   On exhaustion the attempts gained from position `i` on are one per entry
   naming a defined provider, in list order.
   */
  lemma {:induction false} CascadeAttempts(r: Router, env: Env, now: int, oracle: Oracle, items: seq<Value>, i: nat,
                                           t: Tracker, attempts: seq<Attempt>, invoked: seq<nat>)
    requires i <= |items|
    ensures var run := Cascade(r, env, now, oracle, items, i, t, attempts, invoked);
            run.outcome.Exhausted? ==>
              Providers(run.outcome.attempts) == Providers(attempts) + KnownIds(r.providers, items[i..])
    decreases |items| - i
  {
    hide Visit;
    if i < |items| {
      CascadeStep(r, env, now, oracle, items, i, t, attempts, invoked);
      var v := Visit(r, env, now, oracle, items, i, t);
      if v.Pass? {
        var attempts' := Record(attempts, v.attempt);
        CascadeAttempts(r, env, now, oracle, items, i + 1, v.tracker, attempts', Log(invoked, i, v.invoked));
        assert items[i..][1..] == items[i + 1..];
        if v.attempt.Some? {
          assert Providers(attempts') == Providers(attempts) + [items[i].s];
        }
      }
    }
  }

  /**
   `call`: an unknown profile fails at once and leaves the tracker alone;
   otherwise the expired strikes are swept and the profile's list is walked.
   */
  function Call(r: Router, profile: string, env: Env, t: Tracker, now: int, oracle: Oracle): (run: Run)
    ensures run.outcome.UnknownProfile? <==> profile !in r.profiles.values
    ensures run.outcome.UnknownProfile? ==>
              run.tracker == t && run.invoked == [] && run.outcome == UnknownProfile(profile, r.profiles.keys)
    ensures Consistent(t) ==> Consistent(run.tracker)
  {
    if profile !in r.profiles.values then Run(UnknownProfile(profile, r.profiles.keys), t, [])
    else Cascade(r, env, now, oracle, ListOf(r, profile), 0, ClearExpired(t, now).1, [], [])
  }

  /** The list a call walks: the profile's `providers` entry, or nothing for an unknown profile. */
  function ListOf(r: Router, profile: string): seq<Value> {
    if profile in r.profiles.values then ProviderList(r.profiles.values[profile]) else []
  }

  /**
   A call invokes the adapter going forward through the list, at most once
   per position, and only at entries naming a defined provider with a key.
   */
  lemma CallInvocations(r: Router, profile: string, env: Env, t: Tracker, now: int, oracle: Oracle)
    ensures var run := Call(r, profile, env, t, now, oracle);
            && Increasing(run.invoked)
            && forall j :: 0 <= j < |run.invoked| ==> Invocable(r, env, ListOf(r, profile), run.invoked[j])
  {
    hide Visit;
    if profile in r.profiles.values {
      var items := ListOf(r, profile);
      var swept := ClearExpired(t, now).1;
      var none: seq<Attempt> := [];
      var e: seq<nat> := [];
      var run := Cascade(r, env, now, oracle, items, 0, swept, none, e);
      assert run == Call(r, profile, env, t, now, oracle);
      CascadeInvokedUsable(r, env, now, oracle, items, 0, swept, none, e);
      CascadeInvocationsOrdered(r, env, now, oracle, items, 0, swept, none, e);
      assert forall j :: |e| <= j < |Cascade(r, env, now, oracle, items, 0, swept, none, e).invoked| ==> 0 <= Cascade(r, env, now, oracle, items, 0, swept, none, e).invoked[j] && Invocable(r, env, items, Cascade(r, env, now, oracle, items, 0, swept, none, e).invoked[j]);
    }
  }

  /**
   A served call was served by the reply of its last invocation, and every
   earlier invocation, all at earlier positions, failed: the first success
   is returned and nothing after it is invoked.
   */
  lemma CallServedByFirstSuccess(r: Router, profile: string, env: Env, t: Tracker, now: int, oracle: Oracle)
    ensures var run := Call(r, profile, env, t, now, oracle);
            run.outcome.Served? ==>
              && |run.invoked| > 0
              && ServedBy(r, oracle, ListOf(r, profile), run.invoked[|run.invoked| - 1], run.outcome.result)
              && (forall j :: 0 <= j < |run.invoked| - 1 ==>
                    FailsAt(oracle, ListOf(r, profile), run.invoked[j]) && run.invoked[j] < run.invoked[|run.invoked| - 1])
  {
    hide Visit;
    if profile in r.profiles.values {
      var swept := ClearExpired(t, now).1;
      var run := Cascade(r, env, now, oracle, ListOf(r, profile), 0, swept, [], []);
      assert run == Call(r, profile, env, t, now, oracle);
      CascadeInvocationsOrdered(r, env, now, oracle, ListOf(r, profile), 0, swept, [], []);
      CascadeFailures(r, env, now, oracle, ListOf(r, profile), 0, swept, [], []);
      CascadeServed(r, env, now, oracle, ListOf(r, profile), 0, swept, [], []);
    }
  }

  /**
   An exhausted call saw every invocation fail and reports one attempt per
   list entry that names a defined provider, in list order.
   */
  lemma CallExhaustedAttempts(r: Router, profile: string, env: Env, t: Tracker, now: int, oracle: Oracle)
    ensures var run := Call(r, profile, env, t, now, oracle);
            run.outcome.Exhausted? ==>
              && Providers(run.outcome.attempts) == KnownIds(r.providers, ListOf(r, profile))
              && forall j :: 0 <= j < |run.invoked| ==> FailsAt(oracle, ListOf(r, profile), run.invoked[j])
  {
    hide Visit;
    if profile in r.profiles.values {
      var items := ListOf(r, profile);
      var swept := ClearExpired(t, now).1;
      var run := Cascade(r, env, now, oracle, items, 0, swept, [], []);
      assert run == Call(r, profile, env, t, now, oracle);
      CascadeFailures(r, env, now, oracle, items, 0, swept, [], []);
      CascadeAttempts(r, env, now, oracle, items, 0, swept, [], []);
      assert items[0..] == items;
    }
  }

  /** No invocation from position `i` on fails with a rate-limit error. */
  predicate NoRateLimitFrom(oracle: Oracle, items: seq<Value>, i: nat) {
    forall k :: i <= k < |items| && FailsAt(oracle, items, k) ==> !Classify(oracle(k, items[k].s).error).0
  }

  /**
   Without rate-limit failures a cascade over a swept tracker leaves the
   tracker exactly as it was: only a rate-limit failure strikes.
   */
  lemma {:induction false} CascadeWithoutRateLimit(r: Router, env: Env, now: int, oracle: Oracle, items: seq<Value>, i: nat,
                                                   t: Tracker, attempts: seq<Attempt>, invoked: seq<nat>)
    requires i <= |items|
    requires NoneExpired(t.strikes, now) && NoRateLimitFrom(oracle, items, i)
    ensures Cascade(r, env, now, oracle, items, i, t, attempts, invoked).tracker == t
    decreases |items| - i
  {
    if i < |items| {
      var v := Visit(r, env, now, oracle, items, i, t);
      assert v.tracker == t;
      if v.Pass? {
        CascadeWithoutRateLimit(r, env, now, oracle, items, i + 1, t, Record(attempts, v.attempt), Log(invoked, i, v.invoked));
      }
    }
  }

  /** A call without rate-limit failures changes the tracker only by its initial sweep. */
  lemma CallWithoutRateLimit(r: Router, profile: string, env: Env, t: Tracker, now: int, oracle: Oracle)
    requires profile in r.profiles.values
    requires NoRateLimitFrom(oracle, ProviderList(r.profiles.values[profile]), 0)
    ensures Call(r, profile, env, t, now, oracle).tracker == ClearExpired(t, now).1
  {
    hide Visit;
    CascadeWithoutRateLimit(r, env, now, oracle, ProviderList(r.profiles.values[profile]), 0,
                            ClearExpired(t, now).1, [], []);
  }

  /**
   The attempt entry `k` adds to the report when the tracker holds the
   strikes of `t` throughout: none for an entry naming no defined provider;
   `skipped` with "no API key" for one without a key; `struck` with the
   stored reason (by default "rate limited") and renewal time for one with
   a strike; otherwise `failed` with the error's type and text and its
   rate-limit flag. A reply adds none, since it serves the call.
   */
  function EntryAttempt(r: Router, env: Env, t: Tracker, oracle: Oracle, items: seq<Value>, k: nat): Option<Attempt>
    requires k < |items|
  {
    if !IsKnown(r.providers, items[k]) then None
    else
      var pid := items[k].s;
      if !HasApiKey(r.providers.values[pid], env) then Some(Skipped(pid, NoApiKeyReason))
      else if pid in t.strikes.values then
        var rec := t.strikes.values[pid];
        Some(Struck(pid, rec.reason.GetOr(DefaultStrikeReason), rec.renewsAt))
      else
        match oracle(k, pid)
        case Raised(e) => Some(Failed(pid, ErrorReason(e), Classify(e).0))
        case Replied(_) => None
  }

  /** The attempts entries `i..` add to the report, entry by entry. */
  function ExpectedAttempts(r: Router, env: Env, t: Tracker, oracle: Oracle, items: seq<Value>, i: nat): seq<Attempt>
    requires i <= |items|
    decreases |items| - i
  {
    if i == |items| then [] else Record([], EntryAttempt(r, env, t, oracle, items, i)) + ExpectedAttempts(r, env, t, oracle, items, i + 1)
  }

  /**
   Over a tracker with no expired record and without a rate-limit failure
   at `i`, visiting entry `i` keeps the tracker and, unless it serves the
   call, records exactly the attempt `EntryAttempt` describes.
   */
  lemma VisitReported(r: Router, env: Env, now: int, oracle: Oracle, items: seq<Value>, i: nat, t: Tracker)
    requires i < |items|
    requires NoneExpired(t.strikes, now)
    requires FailsAt(oracle, items, i) ==> !Classify(oracle(i, items[i].s).error).0
    ensures var v := Visit(r, env, now, oracle, items, i, t);
            v.Pass? ==> v.tracker == t && v.attempt == EntryAttempt(r, env, t, oracle, items, i)
  {
    VisitCases(r, env, now, oracle, items, i, t);
  }

  /**
   On exhaustion over a tracker with no expired record and without
   rate-limit failures, the attempts gained from position `i` on are
   exactly those `ExpectedAttempts` lists.
   */
  lemma {:induction false} CascadeReport(r: Router, env: Env, now: int, oracle: Oracle, items: seq<Value>, i: nat,
                                         t: Tracker, attempts: seq<Attempt>, invoked: seq<nat>)
    requires i <= |items|
    requires NoneExpired(t.strikes, now) && NoRateLimitFrom(oracle, items, i)
    ensures var run := Cascade(r, env, now, oracle, items, i, t, attempts, invoked);
            run.outcome.Exhausted? ==> run.outcome.attempts == attempts + ExpectedAttempts(r, env, t, oracle, items, i)
    decreases |items| - i
  {
    if i < |items| {
      assert ExpectedAttempts(r, env, t, oracle, items, i)
          == Record([], EntryAttempt(r, env, t, oracle, items, i)) + ExpectedAttempts(r, env, t, oracle, items, i + 1);
      hide Visit, Cascade, ExpectedAttempts, EntryAttempt;
      CascadeStep(r, env, now, oracle, items, i, t, attempts, invoked);
      VisitReported(r, env, now, oracle, items, i, t);
      var v := Visit(r, env, now, oracle, items, i, t);
      if v.Pass? {
        var head := Record([], v.attempt);
        CascadeReport(r, env, now, oracle, items, i + 1, t, Record(attempts, v.attempt), Log(invoked, i, v.invoked));
        assert Record(attempts, v.attempt) == attempts + head;
        SeqAssoc(attempts, head, ExpectedAttempts(r, env, t, oracle, items, i + 1));
      }
    } else {
      assert attempts + [] == attempts;
    }
  }

  /**
   Without rate-limit failures, `AllProvidersExhausted.attempts` holds, for
   each entry naming a defined provider and in list order, the attempt
   `EntryAttempt` describes over the swept tracker.
   */
  lemma CallExhaustedReport(r: Router, profile: string, env: Env, t: Tracker, now: int, oracle: Oracle)
    requires NoRateLimitFrom(oracle, ListOf(r, profile), 0)
    ensures var run := Call(r, profile, env, t, now, oracle);
            run.outcome.Exhausted? ==>
              run.outcome.attempts == ExpectedAttempts(r, env, ClearExpired(t, now).1, oracle, ListOf(r, profile), 0)
  {
    hide Visit;
    if profile in r.profiles.values {
      var swept := ClearExpired(t, now).1;
      CascadeReport(r, env, now, oracle, ListOf(r, profile), 0, swept, [], []);
      assert [] + ExpectedAttempts(r, env, swept, oracle, ListOf(r, profile), 0)
          == ExpectedAttempts(r, env, swept, oracle, ListOf(r, profile), 0);
    }
  }

  /** No provider id is named twice among the entries from position `i` on. */
  predicate NoRepeatsFrom(items: seq<Value>, i: nat) {
    forall a, b :: i <= a < b < |items| && items[a].Str? ==> items[a] != items[b]
  }

  /**
   Whether entry `k` serves the call when the tracker holds the strikes of
   `base`: it names a defined provider with a key and no strike, and the
   adapter replies.
   */
  predicate EntryServes(r: Router, env: Env, base: Tracker, oracle: Oracle, items: seq<Value>, k: nat) {
    Invocable(r, env, items, k) && items[k].s !in base.strikes.values && oracle(k, items[k].s).Replied?
  }

  /**
   The tracker after entry `k`, when that provider's record is the one in
   `base`: a rate-limit failure strikes the provider in `t` under its renewal
   policy and the error's retry delay; every other entry leaves `t` alone.
   */
  function EntryStrike(r: Router, env: Env, now: int, base: Tracker, oracle: Oracle, items: seq<Value>, k: nat, t: Tracker): (t1: Tracker)
    requires k < |items|
    ensures forall q :: (!items[k].Str? || q != items[k].s) ==> Get(t1.strikes, q) == Get(t.strikes, q)
    ensures Consistent(t) ==> Consistent(t1)
  {
    if !Invocable(r, env, items, k) || items[k].s in base.strikes.values then t
    else
      match oracle(k, items[k].s)
      case Replied(_) => t
      case Raised(e) =>
        var (rateLimited, retryAfter) := Classify(e);
        if rateLimited then Strike(t, items[k].s, ErrorReason(e), RenewalPolicy(r.providers.values[items[k].s]), retryAfter, now)
        else t
  }

  /**
   The tracker a cascade from `i` ends with when each entry finds its
   provider's record as in `base`: the rate-limit failures strike their
   providers in list order, up to the entry that serves the call.
   */
  function ExpectedTracker(r: Router, env: Env, now: int, base: Tracker, oracle: Oracle, items: seq<Value>, i: nat, t: Tracker): Tracker
    requires i <= |items|
    decreases |items| - i
  {
    if i == |items| then t
    else
      var t1 := EntryStrike(r, env, now, base, oracle, items, i, t);
      if EntryServes(r, env, base, oracle, items, i) then t1
      else ExpectedTracker(r, env, now, base, oracle, items, i + 1, t1)
  }

  /**
   Visiting entry `i` when its provider's record in `t` is the one in `base`,
   and `base` holds no expired record: the call stops iff the entry serves
   it, the tracker becomes `EntryStrike`, and a passing entry records
   exactly the attempt `EntryAttempt` describes over `base`.
   */
  lemma VisitFromBase(r: Router, env: Env, now: int, oracle: Oracle, items: seq<Value>, i: nat, base: Tracker, t: Tracker)
    requires i < |items|
    requires NoneExpired(base.strikes, now)
    requires items[i].Str? ==> Get(t.strikes, items[i].s) == Get(base.strikes, items[i].s)
    ensures var v := Visit(r, env, now, oracle, items, i, t);
            && (v.Stop? <==> EntryServes(r, env, base, oracle, items, i))
            && v.tracker == EntryStrike(r, env, now, base, oracle, items, i, t)
            && (v.Pass? ==> v.attempt == EntryAttempt(r, env, base, oracle, items, i))
  {
    VisitCases(r, env, now, oracle, items, i, t);
    if Invocable(r, env, items, i) && items[i].s in base.strikes.values {
      assert Get(t.strikes, items[i].s).Some?;
      assert !Expired(base.strikes.values[items[i].s], now);
    }
  }

  /**
   A cascade from `i` over a list naming no provider twice, in which each
   entry finds its provider's record as in `base`, ends with the tracker
   `ExpectedTracker` describes and, on exhaustion, with the attempts
   `ExpectedAttempts` lists over `base`: rate-limit failures included.
   */
  lemma {:induction false} CascadeStrikes(r: Router, env: Env, now: int, oracle: Oracle, items: seq<Value>, i: nat,
                                          base: Tracker, t: Tracker, attempts: seq<Attempt>, invoked: seq<nat>)
    requires i <= |items|
    requires NoneExpired(base.strikes, now) && NoRepeatsFrom(items, i)
    requires forall k :: i <= k < |items| && items[k].Str? ==> Get(t.strikes, items[k].s) == Get(base.strikes, items[k].s)
    ensures var run := Cascade(r, env, now, oracle, items, i, t, attempts, invoked);
            && run.tracker == ExpectedTracker(r, env, now, base, oracle, items, i, t)
            && (run.outcome.Exhausted? ==> run.outcome.attempts == attempts + ExpectedAttempts(r, env, base, oracle, items, i))
    decreases |items| - i
  {
    if i < |items| {
      assert ExpectedAttempts(r, env, base, oracle, items, i)
          == Record([], EntryAttempt(r, env, base, oracle, items, i)) + ExpectedAttempts(r, env, base, oracle, items, i + 1);
      var t1 := EntryStrike(r, env, now, base, oracle, items, i, t);
      assert ExpectedTracker(r, env, now, base, oracle, items, i, t)
          == if EntryServes(r, env, base, oracle, items, i) then t1
             else ExpectedTracker(r, env, now, base, oracle, items, i + 1, t1);
      hide Visit, Cascade, ExpectedAttempts, EntryAttempt, ExpectedTracker, EntryStrike;
      CascadeStep(r, env, now, oracle, items, i, t, attempts, invoked);
      VisitFromBase(r, env, now, oracle, items, i, base, t);
      var v := Visit(r, env, now, oracle, items, i, t);
      if v.Pass? {
        forall k | i + 1 <= k < |items| && items[k].Str?
          ensures Get(t1.strikes, items[k].s) == Get(base.strikes, items[k].s)
        {
          assert items[i].Str? ==> items[i] != items[k];
        }
        var head := Record([], v.attempt);
        CascadeStrikes(r, env, now, oracle, items, i + 1, base, t1, Record(attempts, v.attempt), Log(invoked, i, v.invoked));
        assert Record(attempts, v.attempt) == attempts + head;
        SeqAssoc(attempts, head, ExpectedAttempts(r, env, base, oracle, items, i + 1));
      }
    } else {
      assert attempts + [] == attempts;
    }
  }

  /**
   A call over a profile whose list names no provider twice, rate-limit
   failures included: the final tracker is the swept tracker with a strike
   for each rate-limited failure, in list order, up to the serving entry;
   and `AllProvidersExhausted.attempts` holds, for each entry naming a
   defined provider, the attempt `EntryAttempt` describes over the swept
   tracker.
   */
  lemma CallStrikes(r: Router, profile: string, env: Env, t: Tracker, now: int, oracle: Oracle)
    requires profile in r.profiles.values
    requires NoRepeatsFrom(ListOf(r, profile), 0)
    ensures var run := Call(r, profile, env, t, now, oracle);
            var swept := ClearExpired(t, now).1;
            && run.tracker == ExpectedTracker(r, env, now, swept, oracle, ListOf(r, profile), 0, swept)
            && (run.outcome.Exhausted? ==> run.outcome.attempts == ExpectedAttempts(r, env, swept, oracle, ListOf(r, profile), 0))
  {
    hide Visit;
    var swept := ClearExpired(t, now).1;
    CascadeStrikes(r, env, now, oracle, ListOf(r, profile), 0, swept, swept, [], []);
    assert [] + ExpectedAttempts(r, env, swept, oracle, ListOf(r, profile), 0)
        == ExpectedAttempts(r, env, swept, oracle, ListOf(r, profile), 0);
  }

  /**
   The rate-limit scenario end to end, for a profile listing one usable
   provider without a strike whose adapter raises a rate-limit error with
   a positive delay or none: the call is exhausted with one `failed`
   attempt flagged as a rate limit, the provider is struck in the tracker
   the call leaves, and a second call at the same time reports it as
   `struck` with the error's text and the renewal time, without invoking it.
   */
  lemma RateLimitedThenStruck(r: Router, profile: string, env: Env, t: Tracker, now: int, oracle: Oracle, pid: ProviderId)
    requires profile in r.profiles.values && ListOf(r, profile) == [Str(pid)]
    requires pid in r.providers.values && HasApiKey(r.providers.values[pid], env)
    requires pid !in ClearExpired(t, now).1.strikes.values
    requires oracle(0, pid).Raised? && Classify(oracle(0, pid).error).0
    requires var d := Classify(oracle(0, pid).error).1; d.None? || d.value > 0
    ensures var e := oracle(0, pid).error;
            var cfg := r.providers.values[pid];
            var first := Call(r, profile, env, t, now, oracle);
            var second := Call(r, profile, env, first.tracker, now, oracle);
            && first.outcome == Exhausted([Failed(pid, ErrorReason(e), true)])
            && first.tracker == Strike(ClearExpired(t, now).1, pid, ErrorReason(e), RenewalPolicy(cfg), Classify(e).1, now)
            && second.outcome == Exhausted([Struck(pid, ErrorReason(e), Some(RenewsAt(RenewalPolicy(cfg), Classify(e).1, now)))])
            && second.invoked == []
  {
    var e := oracle(0, pid).error;
    var cfg := r.providers.values[pid];
    var swept := ClearExpired(t, now).1;
    var t1 := Strike(swept, pid, ErrorReason(e), RenewalPolicy(cfg), Classify(e).1, now);
    RateLimitedCall(r, profile, env, t, now, oracle, pid);
    SweepKeepsFreshStrike(swept, pid, ErrorReason(e), RenewalPolicy(cfg), Classify(e).1, now);
    hide Call, Strike, ClearExpired;
    StruckCall(r, profile, env, t1, now, oracle, pid);
  }

  /**
   A profile listing one usable provider without a strike, whose adapter
   raises a rate-limit error: the call is exhausted with one `failed`
   attempt flagged as a rate limit, and the provider is struck under its
   policy and the error's delay.
   */
  lemma RateLimitedCall(r: Router, profile: string, env: Env, t: Tracker, now: int, oracle: Oracle, pid: ProviderId)
    requires profile in r.profiles.values && ListOf(r, profile) == [Str(pid)]
    requires pid in r.providers.values && HasApiKey(r.providers.values[pid], env)
    requires pid !in ClearExpired(t, now).1.strikes.values
    requires oracle(0, pid).Raised? && Classify(oracle(0, pid).error).0
    ensures var e := oracle(0, pid).error;
            var run := Call(r, profile, env, t, now, oracle);
            && run.outcome == Exhausted([Failed(pid, ErrorReason(e), true)])
            && run.tracker == Strike(ClearExpired(t, now).1, pid, ErrorReason(e), RenewalPolicy(r.providers.values[pid]), Classify(e).1, now)
  {
    hide Call, ClearExpired, Visit, Strike, Classify, ErrorReason, RenewalPolicy, Cascade, Invoke;
    var items := ListOf(r, profile);
    var e := oracle(0, pid).error;
    OneEntryCall(r, profile, env, t, now, oracle);
    assert Invocable(r, env, items, 0) && items[0].s == pid;
    VisitRateLimited(r, env, now, oracle, items, 0, ClearExpired(t, now).1);
    assert Record([], Some(Failed(pid, ErrorReason(e), true))) == [Failed(pid, ErrorReason(e), true)];
  }

  /**
   A profile listing one usable provider that holds a strike in force,
   over a tracker with no expired record: the call is exhausted with one
   `struck` attempt carrying the stored reason and renewal time, invokes
   nothing and leaves the tracker as it was.
   */
  lemma StruckCall(r: Router, profile: string, env: Env, t: Tracker, now: int, oracle: Oracle, pid: ProviderId)
    requires profile in r.profiles.values && ListOf(r, profile) == [Str(pid)]
    requires pid in r.providers.values && HasApiKey(r.providers.values[pid], env)
    requires ClearExpired(t, now) == ([], t) && pid in t.strikes.values
    ensures var rec := t.strikes.values[pid];
            var run := Call(r, profile, env, t, now, oracle);
            && run.outcome == Exhausted([Struck(pid, rec.reason.GetOr(DefaultStrikeReason), rec.renewsAt)])
            && run.invoked == []
            && run.tracker == t
  {
    var items := ListOf(r, profile);
    var rec := t.strikes.values[pid];
    OneEntryCall(r, profile, env, t, now, oracle);
    hide Call, ClearExpired;
    assert NoneExpired(ClearExpired(t, now).1.strikes, now);
    assert Invocable(r, env, items, 0) && items[0].s == pid;
    var v := Visit(r, env, now, oracle, items, 0, t);
    assert v == Pass(t, Some(Struck(pid, rec.reason.GetOr(DefaultStrikeReason), rec.renewsAt)), false);
    assert Record([], v.attempt) == [Struck(pid, rec.reason.GetOr(DefaultStrikeReason), rec.renewsAt)];
  }

  /**
   A usable provider without a record whose adapter raises a rate-limit
   error is recorded as failed with the rate-limit flag and struck.
   */
  lemma VisitRateLimited(r: Router, env: Env, now: int, oracle: Oracle, items: seq<Value>, i: nat, t: Tracker)
    requires Invocable(r, env, items, i) && items[i].s !in t.strikes.values
    requires oracle(i, items[i].s).Raised? && Classify(oracle(i, items[i].s).error).0
    ensures var pid := items[i].s;
            var e := oracle(i, pid).error;
            Visit(r, env, now, oracle, items, i, t)
              == Pass(Strike(t, pid, ErrorReason(e), RenewalPolicy(r.providers.values[pid]), Classify(e).1, now),
                      Some(Failed(pid, ErrorReason(e), true)), true)
  {
  }

  /** A call over a profile listing one entry is a single visit of it over the swept tracker. */
  lemma OneEntryCall(r: Router, profile: string, env: Env, t: Tracker, now: int, oracle: Oracle)
    requires profile in r.profiles.values && |ListOf(r, profile)| == 1
    ensures var v := Visit(r, env, now, oracle, ListOf(r, profile), 0, ClearExpired(t, now).1);
            Call(r, profile, env, t, now, oracle)
              == if v.Stop? then Run(Served(v.result), v.tracker, [0])
                 else Run(Exhausted(Record([], v.attempt)), v.tracker, Log([], 0, v.invoked))
  {
    var swept := ClearExpired(t, now).1;
    CascadeStep(r, env, now, oracle, ListOf(r, profile), 0, swept, [], []);
  }

  /** One row of `list_available`. */
  datatype Listing = Listing(id: ProviderId, name: Value, model: Option<Value>, tier: Option<Value>,
                             hasKey: bool, isAvailable: bool, strike: Option<StrikeRecord>)

  /** The id of each row, in order. */
  function Ids(ls: seq<Listing>): (ids: seq<ProviderId>)
    ensures |ids| == |ls|
    ensures forall k :: 0 <= k < |ls| ==> ids[k] == ls[k].id
  {
    seq(|ls|, k requires 0 <= k < |ls| => ls[k].id)
  }

  lemma IdsCons(row: Listing, rows: seq<Listing>)
    ensures Ids([row] + rows) == [row.id] + Ids(rows)
  {
    assert forall k :: 1 <= k <= |rows| ==> ([row] + rows)[k] == rows[k - 1];
  }

  /**
   The rows for the entries of a profile's list: one per entry naming a
   defined provider, after asking the tracker about each of them.
   */
  function ListEntries(r: Router, env: Env, now: int, items: seq<Value>, t: Tracker): (res: (seq<Listing>, Tracker))
  {
    if items == [] then ([], t)
    else if !IsKnown(r.providers, items[0]) then ListEntries(r, env, now, items[1..], t)
    else
      var pid := items[0].s;
      var cfg := r.providers.values[pid];
      var hasKey := HasApiKey(cfg, env);
      var (available, t1) := IsAvailable(t, pid, now);
      var row := Listing(pid, DisplayName(pid, cfg), Get(cfg, "default_model"), Get(cfg, "tier"),
                         hasKey, available && hasKey, Get(t1.strikes, pid));
      var rest := ListEntries(r, env, now, items[1..], t1);
      ([row] + rest.0, rest.1)
  }

  /** The row of a defined provider, as `list_available` builds it from a swept tracker. */
  predicate RowOf(r: Router, env: Env, t: Tracker, row: Listing) {
    && row.id in r.providers.values
    && row.name == DisplayName(row.id, r.providers.values[row.id])
    && row.model == Get(r.providers.values[row.id], "default_model")
    && row.tier == Get(r.providers.values[row.id], "tier")
    && (row.hasKey <==> HasApiKey(r.providers.values[row.id], env))
    && row.strike == Get(t.strikes, row.id)
    && (row.isAvailable <==> row.hasKey && row.strike.None?)
  }

  /**
   Over a tracker with no expired record, the first entry naming a defined
   provider yields its row ahead of the rows of the rest, on the same tracker.
   */
  lemma ListEntriesHead(r: Router, env: Env, now: int, items: seq<Value>, t: Tracker)
    requires items != [] && IsKnown(r.providers, items[0])
    requires NoneExpired(t.strikes, now)
    ensures var res := ListEntries(r, env, now, items, t);
            var rest := ListEntries(r, env, now, items[1..], t);
            && |res.0| > 0 && res.0 == [res.0[0]] + rest.0 && res.1 == rest.1
            && res.0[0].id == items[0].s && RowOf(r, env, t, res.0[0])
  {
    var pid := items[0].s;
    assert IsAvailable(t, pid, now) == (pid !in t.strikes.values, t);
  }

  /**
   Over a tracker with no expired record, listing changes nothing and
   yields one row per entry naming a defined provider, in list order.
   */
  lemma {:induction false} ListEntriesFrame(r: Router, env: Env, now: int, items: seq<Value>, t: Tracker)
    requires NoneExpired(t.strikes, now)
    ensures var res := ListEntries(r, env, now, items, t);
            res.1 == t && Ids(res.0) == KnownIds(r.providers, items)
  {
    if items != [] {
      ListEntriesFrame(r, env, now, items[1..], t);
      if IsKnown(r.providers, items[0]) {
        ListEntriesHead(r, env, now, items, t);
        IdsCons(ListEntries(r, env, now, items, t).0[0], ListEntries(r, env, now, items[1..], t).0);
      }
    }
  }

  /** An entry naming no defined provider adds no row and leaves the tracker alone. */
  lemma ListEntriesSkip(r: Router, env: Env, now: int, items: seq<Value>, t: Tracker)
    requires items != [] && !IsKnown(r.providers, items[0])
    ensures ListEntries(r, env, now, items, t) == ListEntries(r, env, now, items[1..], t)
  {
  }

  /** A row put in front of rows that all satisfy `RowOf` keeps them all satisfying it. */
  lemma RowsCons(r: Router, env: Env, t: Tracker, row: Listing, rows: seq<Listing>)
    requires RowOf(r, env, t, row)
    requires forall k :: 0 <= k < |rows| ==> RowOf(r, env, t, rows[k])
    ensures forall k :: 0 <= k < |[row] + rows| ==> RowOf(r, env, t, ([row] + rows)[k])
  {
    hide RowOf;
    forall k | 0 <= k < |[row] + rows| ensures RowOf(r, env, t, ([row] + rows)[k]) {
      if k > 0 { assert ([row] + rows)[k] == rows[k - 1]; }
    }
  }

  /**
   Over a tracker with no expired record, every row reports the provider's
   settings, its key, its strike, and availability as key and no strike.
   */
  lemma {:induction false} ListEntriesRows(r: Router, env: Env, now: int, items: seq<Value>, t: Tracker)
    requires NoneExpired(t.strikes, now)
    ensures var res := ListEntries(r, env, now, items, t);
            forall k :: 0 <= k < |res.0| ==> RowOf(r, env, t, res.0[k])
  {
    if items != [] {
      hide ListEntries;
      ListEntriesRows(r, env, now, items[1..], t);
      if IsKnown(r.providers, items[0]) {
        ListEntriesHead(r, env, now, items, t);
        RowsCons(r, env, t, ListEntries(r, env, now, items, t).0[0], ListEntries(r, env, now, items[1..], t).0);
      } else {
        ListEntriesSkip(r, env, now, items, t);
      }
    }
  }

  /**
   `list_available`: nothing for an unknown profile (and no sweep);
   otherwise a sweep, then one row per entry naming a defined provider, in
   list order, available iff it has a key and no strike in force. It takes
   no adapter, so no provider is invoked.
   */
  function ListAvailable(r: Router, profile: string, env: Env, t: Tracker, now: int): (res: (seq<Listing>, Tracker))
    ensures profile !in r.profiles.values ==> res == ([], t)
    ensures profile in r.profiles.values ==>
              && res.1 == ClearExpired(t, now).1
              && Ids(res.0) == KnownIds(r.providers, ListOf(r, profile))
              && forall k :: 0 <= k < |res.0| ==> RowOf(r, env, res.1, res.0[k])
    ensures Consistent(t) ==> Consistent(res.1)
  {
    if profile !in r.profiles.values then ([], t)
    else
      var swept := ClearExpired(t, now).1;
      ListEntriesFrame(r, env, now, ListOf(r, profile), swept);
      ListEntriesRows(r, env, now, ListOf(r, profile), swept);
      ListEntries(r, env, now, ListOf(r, profile), swept)
  }

  /**
   A provider `list_available` reports available has a key and no strike
   in force: none at all, or one whose renewal time has come.
   */
  lemma ListedAvailable(r: Router, profile: string, env: Env, t: Tracker, now: int)
    ensures var rows := ListAvailable(r, profile, env, t, now).0;
            forall k :: 0 <= k < |rows| && rows[k].isAvailable ==>
              && HasApiKey(r.providers.values[rows[k].id], env)
              && (Get(t.strikes, rows[k].id).None? || Expired(t.strikes.values[rows[k].id], now))
  {
  }

  /**
   The three steps of the scenario below on a tracker `s` in which the
   second provider holds a strike in force and the third none.
   */
  lemma SkipStrikeCascade(r: Router, env: Env, now: int, oracle: Oracle, items: seq<Value>, s: Tracker)
    requires items == [Str("a"), Str("b"), Str("c")]
    requires "a" in r.providers.values && "b" in r.providers.values && "c" in r.providers.values
    requires !HasApiKey(r.providers.values["a"], env)
    requires HasApiKey(r.providers.values["b"], env) && HasApiKey(r.providers.values["c"], env)
    requires "b" in s.strikes.values && !Expired(s.strikes.values["b"], now)
    requires "c" !in s.strikes.values
    requires oracle(2, "c").Replied?
    ensures var run := Cascade(r, env, now, oracle, items, 0, s, [], []);
            && run.outcome == Served(ResultOf("c", r.providers.values["c"], oracle(2, "c").reply))
            && run.invoked == [2]
  {
    hide Visit;
    var a := [Skipped("a", NoApiKeyReason)];
    var rec := s.strikes.values["b"];
    var ab := a + [Struck("b", rec.reason.GetOr(DefaultStrikeReason), rec.renewsAt)];
    assert Cascade(r, env, now, oracle, items, 0, s, [], []) == Cascade(r, env, now, oracle, items, 1, s, a, []) by {
      assert items[0] == Str("a");
      CascadeStep(r, env, now, oracle, items, 0, s, [], []);
      VisitCases(r, env, now, oracle, items, 0, s);
      assert Visit(r, env, now, oracle, items, 0, s) == Pass(s, Some(Skipped("a", NoApiKeyReason)), false);
      assert Record([], Some(Skipped("a", NoApiKeyReason))) == a;
    }
    assert Cascade(r, env, now, oracle, items, 1, s, a, []) == Cascade(r, env, now, oracle, items, 2, s, ab, []) by {
      assert items[1] == Str("b");
      CascadeStep(r, env, now, oracle, items, 1, s, a, []);
      VisitCases(r, env, now, oracle, items, 1, s);
      assert Visit(r, env, now, oracle, items, 1, s) == Pass(s, Some(ab[1]), false);
    }
    assert items[2] == Str("c");
    CascadeStep(r, env, now, oracle, items, 2, s, ab, []);
    VisitCases(r, env, now, oracle, items, 2, s);
  }

  /**
   The three-entry scenario: the first provider has no key, the second has
   a strike in force, the third replies. The third serves the call and is
   the only provider invoked.
   */
  lemma SkipStrikeServe(r: Router, profile: string, env: Env, t: Tracker, now: int, oracle: Oracle)
    requires profile in r.profiles.values
    requires ListOf(r, profile) == [Str("a"), Str("b"), Str("c")]
    requires "a" in r.providers.values && "b" in r.providers.values && "c" in r.providers.values
    requires !HasApiKey(r.providers.values["a"], env)
    requires HasApiKey(r.providers.values["b"], env) && HasApiKey(r.providers.values["c"], env)
    requires "b" in t.strikes.values && !Expired(t.strikes.values["b"], now)
    requires "c" !in t.strikes.values
    requires oracle(2, "c").Replied?
    ensures var run := Call(r, profile, env, t, now, oracle);
            && run.outcome == Served(ResultOf("c", r.providers.values["c"], oracle(2, "c").reply))
            && run.invoked == [2]
  {
    hide Visit;
    var swept := ClearExpired(t, now).1;
    assert Get(swept.strikes, "b") == Get(t.strikes, "b");
    assert Get(swept.strikes, "c").None?;
    SkipStrikeCascade(r, env, now, oracle, ListOf(r, profile), swept);
  }
}

=== FILE: text.dfy ===
/**
 Character and string helpers with the semantics of the Python built-ins the
 router relies on, restricted to ASCII: `str.lower`, the substring test
 `sub in s`, the regular-expression classes `\s` and `\d`, and `int(str)`.
 */
module Text {
  import opened Wrappers

  /** ASCII case folding of one character (Python's `str.lower` on ASCII). */
  function LowerChar(c: char): char {
    if 'A' <= c <= 'Z' then (c as int + 32) as char else c
  }

  function Lower(s: string): (r: string)
    ensures |r| == |s|
    ensures forall i :: 0 <= i < |s| ==> r[i] == LowerChar(s[i])
  {
    seq(|s|, i requires 0 <= i < |s| => LowerChar(s[i]))
  }

  /** `sub` occurs in `s` at position `i`. */
  ghost predicate OccursAt(s: string, sub: string, i: int) {
    0 <= i && i + |sub| <= |s| && s[i..i + |sub|] == sub
  }

  /** Python's `sub in s`, searched from the left. */
  function Contains(s: string, sub: string): (b: bool)
    ensures b <==> exists i :: OccursAt(s, sub, i)
    decreases |s|
  {
    if |sub| > |s| then false
    else if s[..|sub|] == sub then
      assert OccursAt(s, sub, 0);
      true
    else
      var b := Contains(s[1..], sub);
      assert b ==> exists i :: OccursAt(s, sub, i) by {
        if b {
          var i :| OccursAt(s[1..], sub, i);
          assert s[i + 1..i + 1 + |sub|] == s[1..][i..i + |sub|];
          assert OccursAt(s, sub, i + 1);
        }
      }
      assert (exists i :: OccursAt(s, sub, i)) ==> b by {
        if exists i :: OccursAt(s, sub, i) {
          var i :| OccursAt(s, sub, i);
          assert i != 0;
          assert s[1..][i - 1..i - 1 + |sub|] == s[i..i + |sub|];
          assert OccursAt(s[1..], sub, i - 1);
        }
      }
      b
  }

  /** The ASCII members of the regular-expression class `\s`. */
  predicate IsSpace(c: char) {
    c == ' ' || 9 <= c as int <= 13 || 28 <= c as int <= 31
  }

  /**
   The whitespace `int()` ignores around its digits: the space and
   `\t\n\v\f\r`. Unlike `\s`, it does not include `\x1c`..`\x1f`.
   */
  predicate IsIntSpace(c: char) {
    c == ' ' || 9 <= c as int <= 13
  }

  /** The ASCII members of the regular-expression class `\d`. */
  predicate IsDigit(c: char) {
    '0' <= c <= '9'
  }

  predicate AllDigits(s: string) {
    forall i :: 0 <= i < |s| ==> IsDigit(s[i])
  }

  function DigitValue(c: char): nat
    requires IsDigit(c)
  {
    c as int - '0' as int
  }

  function DigitChar(d: nat): (c: char)
    requires d < 10
    ensures IsDigit(c) && DigitValue(c) == d
  {
    ('0' as int + d) as char
  }

  /** The decimal value of a string of digits, most significant first. */
  function DigitsValue(s: string): nat
    requires AllDigits(s)
  {
    if s == [] then 0 else DigitsValue(s[..|s| - 1]) * 10 + DigitValue(s[|s| - 1])
  }

  /** The shortest decimal spelling of `n`. */
  function ShowNat(n: nat): (s: string)
    ensures |s| > 0 && AllDigits(s)
  {
    if n < 10 then [DigitChar(n)] else ShowNat(n / 10) + [DigitChar(n % 10)]
  }

  lemma {:induction false} DigitsValueShowNat(n: nat)
    ensures DigitsValue(ShowNat(n)) == n
  {
    if n >= 10 {
      var s := ShowNat(n);
      assert s[..|s| - 1] == ShowNat(n / 10);
      DigitsValueShowNat(n / 10);
    }
  }

  /** `s` without the leading whitespace `int()` ignores. */
  function TrimLeft(s: string): (r: string)
    ensures |r| <= |s| && r == s[|s| - |r|..]
    ensures forall i :: 0 <= i < |s| - |r| ==> IsIntSpace(s[i])
    ensures r == [] || !IsIntSpace(r[0])
    ensures s != [] && !IsIntSpace(s[0]) ==> r == s
  {
    if s != [] && IsIntSpace(s[0]) then
      var r := TrimLeft(s[1..]);
      assert forall i :: 1 <= i < |s| ==> s[i] == s[1..][i - 1];
      r
    else s
  }

  /** `s` without the trailing whitespace `int()` ignores. */
  function TrimRight(s: string): (r: string)
    ensures |r| <= |s| && r == s[..|r|]
    ensures forall i :: |r| <= i < |s| ==> IsIntSpace(s[i])
    ensures r == [] || !IsIntSpace(r[|r| - 1])
    ensures s != [] && !IsIntSpace(s[|s| - 1]) ==> r == s
  {
    if s != [] && IsIntSpace(s[|s| - 1]) then
      var r := TrimRight(s[..|s| - 1]);
      assert forall i :: 0 <= i < |s| - 1 ==> s[i] == s[..|s| - 1][i];
      r
    else s
  }

  /** The text `int()` reads: `s` without the whitespace around it. Every other character is kept. */
  function Strip(s: string): (r: string)
    ensures forall i :: 0 <= i < |s| && !IsIntSpace(s[i]) ==> s[i] in r
  {
    var l := TrimLeft(s);
    var r := TrimRight(l);
    hide TrimLeft, TrimRight;
    forall i | 0 <= i < |s| && !IsIntSpace(s[i]) ensures s[i] in r {
      KeptByTrim(s, l, r, i);
    }
    r
  }

  /** A character outside the trimmed whitespace survives both trims. */
  lemma KeptByTrim(s: string, l: string, r: string, i: nat)
    requires |l| <= |s| && l == s[|s| - |l|..] && forall k :: 0 <= k < |s| - |l| ==> IsIntSpace(s[k])
    requires |r| <= |l| && r == l[..|r|] && forall k :: |r| <= k < |l| ==> IsIntSpace(l[k])
    requires i < |s| && !IsIntSpace(s[i])
    ensures s[i] in r
  {
    var j := i - (|s| - |l|);
    assert 0 <= j < |l| && l[j] == s[i];
    assert j < |r| && r[j] == s[i];
  }

  /**
   The digit part Python's `int` accepts in base 10: one or more digits,
   optionally separated by single underscores.
   */
  predicate IsDigitGroup(s: string) {
    && |s| > 0
    && IsDigit(s[0])
    && IsDigit(s[|s| - 1])
    && (forall i :: 0 <= i < |s| ==> IsDigit(s[i]) || s[i] == '_')
    && (forall i :: 0 <= i < |s| - 1 ==> s[i] != '_' || s[i + 1] != '_')
  }

  function DropUnderscores(s: string): (r: string)
    requires forall i :: 0 <= i < |s| ==> IsDigit(s[i]) || s[i] == '_'
    ensures AllDigits(r)
    ensures AllDigits(s) ==> r == s
  {
    if s == [] then []
    else (if s[0] == '_' then [] else [s[0]]) + DropUnderscores(s[1..])
  }

  /**
   Python's `int(s)` for a `str` argument: surrounding whitespace is ignored,
   one optional sign, then a digit group; anything else is a `ValueError`,
   here `None`.
   */
  function ParseInt(s: string): (r: Option<int>)
    ensures r.Some? ==> Strip(s) != []
    ensures r.Some? ==> forall i :: 0 <= i < |s| ==> IntChar(s[i])
  {
    var t := Strip(s);
    var r := ParseTrimmed(t);
    assert r.Some? ==> forall i :: 0 <= i < |s| ==> IntChar(s[i]) by {
      if r.Some? {
        forall i | 0 <= i < |s| ensures IntChar(s[i]) {
          if !IsIntSpace(s[i]) {
            var j :| 0 <= j < |t| && t[j] == s[i];
          }
        }
      }
    }
    r
  }

  /** `int()` does not skip the separator controls `\x1c`..`\x1f`, though `\s` matches them. */
  lemma ParseRejectsSeparator(c: char, digits: string)
    requires 28 <= c as int <= 31
    ensures ParseInt([c] + digits).None?
  {
    assert ([c] + digits)[0] == c && !IntChar(c);
  }

  /** A character that can appear in a string `int()` accepts: whitespace, a digit, `_` or a sign. */
  predicate IntChar(c: char) {
    IsIntSpace(c) || IsDigit(c) || c == '_' || c == '+' || c == '-'
  }

  /** `int` on a string without surrounding whitespace: an optional sign, then a digit group. */
  function ParseTrimmed(t: string): (r: Option<int>)
    ensures r.Some? ==> t != []
    ensures r.Some? ==> forall i :: 0 <= i < |t| ==> IsDigit(t[i]) || t[i] == '_' || (i == 0 && (t[i] == '+' || t[i] == '-'))
  {
    if t == [] then None
    else
      var body := if t[0] == '+' || t[0] == '-' then t[1..] else t;
      if !IsDigitGroup(body) then None
      else
        var v: int := DigitsValue(DropUnderscores(body));
        Some(if t[0] == '-' then -v else v)
  }

  /** Python's `str(n)` for an integer. */
  function ShowInt(n: int): (s: string)
    ensures |s| > 0
  {
    if n < 0 then "-" + ShowNat(-n) else ShowNat(n)
  }

  /** A string with no whitespace at either end is its own `strip()`. */
  lemma StripUnspaced(s: string)
    requires s != [] && !IsIntSpace(s[0]) && !IsIntSpace(s[|s| - 1])
    ensures Strip(s) == s
  {
    assert TrimLeft(s) == s;
  }

  /** A digit string parses to its value. */
  lemma ParseUnsigned(digits: string)
    requires IsDigitGroup(digits) && AllDigits(digits)
    ensures ParseInt(digits) == Some(DigitsValue(digits) as int)
  {
    hide ParseInt, ParseTrimmed;
    StripUnspaced(digits);
    ParseUnspaced(digits);
    ParseTrimmedUnsigned(digits);
  }

  /** A digit string without sign or whitespace is its own value. */
  lemma ParseTrimmedUnsigned(t: string)
    requires IsDigitGroup(t) && AllDigits(t)
    ensures ParseTrimmed(t) == Some(DigitsValue(t) as int)
  {
    assert t[0] != '+' && t[0] != '-';
    assert DropUnderscores(t) == t;
  }

  /** A string that `strip` leaves alone is parsed as it stands. */
  lemma ParseUnspaced(s: string)
    requires Strip(s) == s
    ensures ParseInt(s) == ParseTrimmed(s)
  {
    hide Strip, ParseTrimmed;
  }

  /** A minus sign followed by a digit group is the negated value of the digits. */
  lemma ParseTrimmedNegative(t: string)
    requires |t| > 1 && t[0] == '-' && IsDigitGroup(t[1..]) && AllDigits(t[1..])
    ensures ParseTrimmed(t) == Some(-(DigitsValue(t[1..]) as int))
  {
    assert DropUnderscores(t[1..]) == t[1..];
  }

  /** A minus sign followed by a digit string has no whitespace to strip. */
  lemma ParseNegativeStripped(digits: string)
    requires IsDigitGroup(digits)
    ensures ParseInt("-" + digits) == ParseTrimmed("-" + digits)
  {
    var t := "-" + digits;
    assert t[0] == '-' && t[|t| - 1] == digits[|digits| - 1];
    StripUnspaced(t);
  }

  /** A minus sign followed by a digit string parses to the negated value. */
  lemma ParseNegative(digits: string)
    requires IsDigitGroup(digits) && AllDigits(digits)
    ensures ParseTrimmed("-" + digits) == Some(-(DigitsValue(digits) as int))
  {
    hide ParseTrimmed;
    var t := "-" + digits;
    assert t[1..] == digits;
    assert |t| > 1 && t[0] == '-';
    assert IsDigitGroup(t[1..]);
    assert AllDigits(t[1..]);
    ParseTrimmedNegative(t);
  }

  /** Reading back what `str` writes gives the same integer. */
  lemma ParseShowInt(n: int)
    ensures ParseInt(ShowInt(n)) == Some(n)
  {
    var m: nat := if n < 0 then -n else n;
    var digits := ShowNat(m);
    assert IsDigitGroup(digits);
    DigitsValueShowNat(m);
    if n < 0 {
      hide ParseInt, ParseTrimmed;
      ParseNegativeStripped(digits);
      ParseNegative(digits);
    } else {
      ParseUnsigned(digits);
    }
  }
}

=== FILE: tracker.dfy ===
/**
 The strike tracker: which providers are currently rate-limited ("struck")
 and until when. A strike record is kept per provider id; a record whose
 renewal time has passed is deleted the next time it is looked at, either by
 an availability check or by an explicit sweep. Time is an explicit `now`
 (whole seconds since the 1970 epoch, UTC), and the optional JSON state file
 is an abstract store that receives the whole map after every write.
 */
module StrikeTracker {
  import opened Wrappers
  import opened Dicts
  import opened Calendar

  type ProviderId = string

  /**
   One strike. Records written by `Strike` carry all three fields; records
   read back from a state file may lack any of them. A missing or empty
   `renews_at` is `None`.
   */
  datatype StrikeRecord = StrikeRecord(struckAt: Option<int>, reason: Option<string>, renewsAt: Option<int>)

  /** What the state file holds when the tracker opens it. */
  datatype StoreFile =
    | Missing                                 // no file at the configured path
    | Unreadable                              // the file exists but cannot be read as UTF-8 text
    | NotJson                                 // the text is not JSON
    | NotAnObject                             // JSON whose top level is not an object
    | Stored(strikes: Dict<StrikeRecord>)     // the "strikes" object of the file (empty when absent)

  /** The in-memory map and, when a state file is configured, that file. */
  datatype Tracker = Tracker(strikes: Dict<StrikeRecord>, file: Option<StoreFile>)

  /** Renewal policies are free-form strings in the provider configuration. */
  const Daily: string := "daily"
  const Monthly: string := "monthly"
  const Rolling: string := "rolling"

  /** The cooldown of the rolling policy, and of every unrecognised policy. */
  const RollingCooldown: int := 60

  /** A record expires once `now` reaches its renewal time; one without a renewal time never does. */
  predicate Expired(rec: StrikeRecord, now: int) {
    rec.renewsAt.Some? && now >= rec.renewsAt.value
  }

  /** Every record held in `d` is still in force at `now`. */
  predicate NoneExpired(d: Dict<StrikeRecord>, now: int) {
    forall q :: q in d.values ==> !Expired(d.values[q], now)
  }

  /**
   The strikes a tracker reads from its store. An absent file and text that
   is not JSON read as empty; a file that cannot be read, and JSON that is
   not an object, make loading raise (`None`).
   */
  function Loaded(file: StoreFile): Option<Dict<StrikeRecord>> {
    match file
    case Missing => Some(Empty())
    case NotJson => Some(Empty())
    case Stored(d) => Some(d)
    case Unreadable => None
    case NotAnObject => None
  }

  /** A tracker opened on the same store would hold exactly the strikes held in memory. */
  predicate Consistent(t: Tracker) {
    t.file.Some? ==> Loaded(t.file.value) == Some(t.strikes)
  }

  /**
   Construction: load the store if one is configured. It fails (`None`, the
   constructor raising) exactly for an unreadable file and for JSON that is
   not an object; a missing file or text that is not JSON starts empty.
   */
  function Open(file: Option<StoreFile>): (r: Option<Tracker>)
    ensures r.None? <==> file == Some(Unreadable) || file == Some(NotAnObject)
    ensures r.Some? ==> r.value.file == file && Consistent(r.value)
    ensures file.None? || file == Some(Missing) || file == Some(NotJson) ==> r.Some? && r.value.strikes.keys == []
    ensures forall d :: file == Some(Stored(d)) ==> r == Some(Tracker(d, file))
  {
    if file.None? then Some(Tracker(Empty(), None))
    else
      var loaded := Loaded(file.value);
      if loaded.None? then None else Some(Tracker(loaded.value, file))
  }

  /** Writes the whole map to the store, when there is one. */
  function Save(t: Tracker): (r: Tracker)
    ensures r.strikes == t.strikes && Consistent(r)
    ensures r.file.Some? <==> t.file.Some?
  {
    if t.file.Some? then t.(file := Some(Stored(t.strikes))) else t
  }

  /**
   The next UTC midnight: the start of the day after the current date.
   */
  function NextMidnight(now: int): (r: int)
    ensures r % SecondsPerDay == 0
    ensures now < r <= now + SecondsPerDay
    ensures CivilFromDays(r / SecondsPerDay) == NextDate(CivilFromDays(DayOf(now)))
  {
    var tomorrow := DayOf(now) + 1;
    NextDay(DayOf(now));
    MidnightOfDay(tomorrow);
    DayBounds(now);
    tomorrow * SecondsPerDay
  }

  /**
   00:00 UTC on the first of the month after the current one; December
   rolls over to January of the next year. It is the first start of a month
   strictly after `now`.
   */
  function StartOfNextMonth(now: int): (r: int)
    ensures r % SecondsPerDay == 0
    ensures now < r <= now + 31 * SecondsPerDay
    ensures var today := CivilFromDays(DayOf(now));
            var first := CivilFromDays(r / SecondsPerDay);
            && first.day == 1
            && (today.month == 12 ==> first.year == today.year + 1 && first.month == 1)
            && (today.month < 12 ==> first.year == today.year && first.month == today.month + 1)
    ensures forall z :: DayOf(now) < z < r / SecondsPerDay ==> CivilFromDays(z).day != 1
  {
    var today := CivilFromDays(DayOf(now));
    var first := if today.month == 12 then Date(today.year + 1, 1, 1)
                 else Date(today.year, today.month + 1, 1);
    assert first == FirstOfNextMonth(today);
    var r := DaysFromCivil(first) * SecondsPerDay;
    CivilFromDaysOfCivil(first);
    MidnightOfDay(DaysFromCivil(first));
    DayBounds(now);
    assert DaysFromCivil(first) <= DayOf(now) + 31;
    NoFirstBefore(today, DayOf(now));
    r
  }

  /** Between a date and the first of the next month no day is a first. */
  lemma NoFirstBefore(today: Date, dayNumber: int)
    requires ValidDate(today) && DaysFromCivil(today) == dayNumber
    ensures forall z :: dayNumber < z < DaysFromCivil(FirstOfNextMonth(today)) ==> CivilFromDays(z).day != 1
  {
    forall z | dayNumber < z < DaysFromCivil(FirstOfNextMonth(today))
      ensures CivilFromDays(z).day != 1
    {
      var k := today.day + (z - dayNumber);
      var d := Date(today.year, today.month, k);
      assert ValidDate(d) && DaysFromCivil(d) == z;
      CivilFromDaysOfCivil(d);
    }
  }

  /** No delay, or a zero one: Python treats both as false. */
  predicate NoDelay(retryAfter: Option<int>) {
    retryAfter.None? || retryAfter.value == 0
  }

  /**
   When a new strike renews: an explicit non-zero retry delay wins (Python
   treats 0 like no delay); otherwise the renewal policy decides, and any
   policy other than daily or monthly is the rolling 60-second cooldown.
   */
  function RenewsAt(policy: string, retryAfter: Option<int>, now: int): (r: int)
    ensures (retryAfter.Some? && retryAfter.value < 0) || now < r
    ensures (retryAfter.Some? && retryAfter.value != 0) || r <= now + 31 * SecondsPerDay
    ensures retryAfter.Some? && retryAfter.value != 0 ==> r == now + retryAfter.value
    ensures NoDelay(retryAfter) && policy == Daily ==>
              && r % SecondsPerDay == 0 && now < r <= now + SecondsPerDay
              && CivilFromDays(r / SecondsPerDay) == NextDate(CivilFromDays(DayOf(now)))
    ensures NoDelay(retryAfter) && policy == Monthly ==>
              var today := CivilFromDays(DayOf(now));
              var first := CivilFromDays(r / SecondsPerDay);
              && r % SecondsPerDay == 0 && first.day == 1
              && (today.month == 12 ==> first.year == today.year + 1 && first.month == 1)
              && (today.month < 12 ==> first.year == today.year && first.month == today.month + 1)
    ensures NoDelay(retryAfter) && policy != Daily && policy != Monthly ==> r == now + RollingCooldown
  {
    if retryAfter.Some? && retryAfter.value != 0 then now + retryAfter.value
    else if policy == Daily then NextMidnight(now)
    else if policy == Monthly then StartOfNextMonth(now)
    else now + RollingCooldown
  }

  /**
   Availability of `pid` at `now`. A provider without a record is available
   and nothing changes; an expired record is deleted (and the store written)
   and the provider is available; any other record keeps it unavailable.
   */
  function IsAvailable(t: Tracker, pid: ProviderId, now: int): (r: (bool, Tracker))
    ensures r.0 <==> Get(t.strikes, pid).None? || Expired(t.strikes.values[pid], now)
    ensures forall q :: Get(r.1.strikes, q) == if q == pid && r.0 then None else Get(t.strikes, q)
    ensures Get(t.strikes, pid).None? || !r.0 ==> r.1 == t
    ensures Consistent(t) ==> Consistent(r.1)
    ensures r.1.file.Some? <==> t.file.Some?
  {
    if pid !in t.strikes.values then (true, t)
    else if Expired(t.strikes.values[pid], now) then (true, Save(t.(strikes := Remove(t.strikes, pid))))
    else (false, t)
  }

  /**
   Records a strike for `pid` at `now`, replacing any earlier one, and writes
   the store. Nothing else in the map changes.
   */
  function Strike(t: Tracker, pid: ProviderId, reason: string, policy: string, retryAfter: Option<int>, now: int): (r: Tracker)
    ensures Get(r.strikes, pid).Some?
    ensures r.strikes.values[pid].struckAt == Some(now)
    ensures r.strikes.values[pid].reason == Some(reason)
    ensures r.strikes.values[pid].renewsAt == Some(RenewsAt(policy, retryAfter, now))
    ensures forall q :: q != pid ==> Get(r.strikes, q) == Get(t.strikes, q)
    ensures r.file.Some? <==> t.file.Some?
    ensures r.file.Some? ==> r.file.value == Stored(r.strikes)
  {
    var rec := StrikeRecord(Some(now), Some(reason), Some(RenewsAt(policy, retryAfter, now)));
    Save(t.(strikes := Put(t.strikes, pid, rec)))
  }

  /** The keys of `ks` whose records in `d` are expired at `now`, in the order of `ks`. */
  function ExpiredKeys(d: Dict<StrikeRecord>, ks: seq<ProviderId>, now: int): (r: seq<ProviderId>)
    requires forall q :: q in ks ==> q in d.values
    ensures forall q :: q in r <==> q in ks && Expired(d.values[q], now)
    ensures r == [] <==> forall q :: q in ks ==> !Expired(d.values[q], now)
  {
    if ks == [] then []
    else (if Expired(d.values[ks[0]], now) then [ks[0]] else []) + ExpiredKeys(d, ks[1..], now)
  }

  /** From a list without repeats, `ExpiredKeys` picks a list without repeats, in the same order. */
  lemma {:induction false} ExpiredKeysInOrder(d: Dict<StrikeRecord>, ks: seq<ProviderId>, now: int)
    requires forall q :: q in ks ==> q in d.values
    requires Distinct(ks)
    ensures Distinct(ExpiredKeys(d, ks, now)) && Subsequence(ExpiredKeys(d, ks, now), ks)
  {
    if ks != [] {
      var rest := ExpiredKeys(d, ks[1..], now);
      var r := ExpiredKeys(d, ks, now);
      assert r == (if Expired(d.values[ks[0]], now) then [ks[0]] else []) + rest;
      hide ExpiredKeys;
      assert Distinct(ks[1..]) && ks[0] !in ks[1..] by {
        forall j | 0 <= j < |ks[1..]| ensures ks[1..][j] != ks[0] {
          assert ks[1..][j] == ks[j + 1];
        }
      }
      ExpiredKeysInOrder(d, ks[1..], now);
      assert rest != [] ==> rest[0] != ks[0] by {
        if rest != [] {
          assert rest[0] in rest;
        }
      }
      if Expired(d.values[ks[0]], now) {
        assert ks[0] !in rest;
        DistinctCons(ks[0], rest);
        assert r[0] == ks[0] && r[1..] == rest;
      } else {
        assert r == rest;
        if rest != [] {
          assert rest[0] != ks[0] && Subsequence(rest, ks[1..]);
        }
      }
    }
  }

  /**
   The eager sweep: deletes every expired record, writes the store when
   something was deleted, and returns the deleted ids in map order.
   */
  function ClearExpired(t: Tracker, now: int): (r: (seq<ProviderId>, Tracker))
    ensures forall q :: q in r.0 <==> q in t.strikes.keys && Expired(t.strikes.values[q], now)
    ensures Distinct(r.0) && Subsequence(r.0, t.strikes.keys)
    ensures r.1.strikes.keys == Keep(t.strikes.keys, r.0)
    ensures forall q :: Get(r.1.strikes, q) == if q in r.0 then None else Get(t.strikes, q)
    ensures NoneExpired(r.1.strikes, now)
    ensures r.0 == [] ==> r.1 == t
    ensures Consistent(t) ==> Consistent(r.1)
    ensures r.1.file.Some? <==> t.file.Some?
  {
    var expired := ExpiredKeys(t.strikes, t.strikes.keys, now);
    ExpiredKeysInOrder(t.strikes, t.strikes.keys, now);
    if expired == [] then KeepNone(t.strikes.keys); (expired, t)
    else
      var kept := RemoveAll(t.strikes, expired);
      assert NoneExpired(kept, now) by {
        forall q | q in kept.values ensures !Expired(kept.values[q], now) {
          assert Get(kept, q).Some?;
        }
      }
      (expired, Save(t.(strikes := kept)))
  }

  /** The `get_status` snapshot. */
  datatype Status = Status(activeStrikes: nat, strikes: Dict<StrikeRecord>)

  /**
   Sweeps, then reports the remaining records and how many there are: the
   records of `t` that are still in force at `now`.
   */
  function GetStatus(t: Tracker, now: int): (r: (Status, Tracker))
    ensures r.0.activeStrikes == |r.0.strikes.keys|
    ensures forall q :: Get(r.0.strikes, q) ==
              if Get(t.strikes, q).Some? && !Expired(t.strikes.values[q], now) then Get(t.strikes, q) else None
    ensures r.1.strikes == r.0.strikes
    ensures Consistent(t) ==> Consistent(r.1)
  {
    var swept := ClearExpired(t, now).1;
    (Status(|swept.strikes.keys|, swept.strikes), swept)
  }

  /**
   After a strike, the provider is unavailable exactly until its renewal
   time: an availability check at `later` succeeds iff `later` has reached it.
   */
  lemma StrikeThenAvailable(t: Tracker, pid: ProviderId, reason: string, policy: string,
                            retryAfter: Option<int>, now: int, later: int)
    ensures (IsAvailable(Strike(t, pid, reason, policy, retryAfter, now), pid, later).0
             <==> later >= RenewsAt(policy, retryAfter, now))
  {
  }

  /**
   Over a tracker with no expired record, a strike that is still in force
   (a positive delay, or none) leaves nothing for a sweep at the same time.
   */
  lemma SweepKeepsFreshStrike(t: Tracker, pid: ProviderId, reason: string, policy: string,
                              retryAfter: Option<int>, now: int)
    requires NoneExpired(t.strikes, now)
    requires retryAfter.None? || retryAfter.value > 0
    ensures var s := Strike(t, pid, reason, policy, retryAfter, now);
            ClearExpired(s, now) == ([], s)
  {
    var s := Strike(t, pid, reason, policy, retryAfter, now);
    hide Strike;
    assert NoneExpired(s.strikes, now) by {
      forall q | q in s.strikes.values ensures !Expired(s.strikes.values[q], now) {
        if q != pid {
          assert Get(s.strikes, q) == Get(t.strikes, q);
        }
      }
    }
    hide ExpiredKeys;
    assert ExpiredKeys(s.strikes, s.strikes.keys, now) == [];
  }

  /** A strike is persisted: reopening the tracker's store yields the same tracker. */
  lemma ReopenAfterStrike(t: Tracker, pid: ProviderId, reason: string, policy: string,
                          retryAfter: Option<int>, now: int)
    requires t.file.Some?
    ensures var s := Strike(t, pid, reason, policy, retryAfter, now);
            Open(s.file) == Some(s)
  {
  }

  /** Every mutation leaves a consistent tracker consistent, so a reopened store always agrees with memory. */
  lemma ReopenAfterAvailabilityCheck(t: Tracker, pid: ProviderId, now: int)
    requires t.file.Some? && Consistent(t)
    ensures var s := IsAvailable(t, pid, now).1;
            Open(s.file) == Some(s)
  {
  }

  /** A second sweep at the same time finds nothing and changes nothing. */
  lemma ClearExpiredIdempotent(t: Tracker, now: int)
    ensures var s := ClearExpired(t, now).1;
            ClearExpired(s, now) == ([], s)
  {
    hide ExpiredKeys;
    var s := ClearExpired(t, now).1;
    assert ExpiredKeys(s.strikes, s.strikes.keys, now) == [];
  }

  /**
   After a sweep, an availability check at the same time is a pure lookup:
   the provider is available iff it has no record, and nothing changes.
   */
  lemma AvailableAfterSweep(t: Tracker, pid: ProviderId, now: int)
    ensures var s := ClearExpired(t, now).1;
            IsAvailable(s, pid, now) == (pid !in s.strikes.values, s)
  {
  }

  /** The status right after a strike lists the provider iff its renewal time is still ahead. */
  lemma StatusAfterStrike(t: Tracker, pid: ProviderId, reason: string, policy: string,
                          retryAfter: Option<int>, now: int)
    ensures var st := GetStatus(Strike(t, pid, reason, policy, retryAfter, now), now).0;
            pid in st.strikes.values <==> now < RenewsAt(policy, retryAfter, now)
    ensures retryAfter.None? ==> GetStatus(Strike(t, pid, reason, policy, retryAfter, now), now).0.activeStrikes >= 1
  {
    var st := GetStatus(Strike(t, pid, reason, policy, retryAfter, now), now).0;
    assert Get(st.strikes, pid).Some? <==> now < RenewsAt(policy, retryAfter, now);
    if retryAfter.None? {
      assert pid in st.strikes.keys;
    }
  }
}

=== FILE: wrappers.dfy ===
/** The optional-value datatype shared by every module of the model. */
module Wrappers {

  /** Some value, or nothing: Python's `None` where a value may be absent. */
  datatype Option<+T> = None | Some(value: T) {

    /** The value, or `default` when there is none (Python's `d.get(k, default)`). */
    function GetOr(default: T): (r: T)
      ensures Some? ==> r == value
      ensures None? ==> r == default
    {
      match this
      case Some(v) => v
      case None => default
    }
  }
}
